=== FILE: README.md ===
# tucarnet backend — a Dafny model of the service rules

The model covers the rules of the UFPS digital student card backend, a NestJS service over a Prisma database.

- **Administrators** (`AdminUsers`): create, list, update and delete administrators, and their login. Each action runs an ordered chain of checks before it touches the table.
- **Route guards** (`RolesGuard`, `JwtStrategy`): the role guard and the token strategy that turn an administrator token into a row of the table.
- **Careers** (`Careers`, `Text`): the catalogue of undergraduate (pregrado) and graduate (posgrado) programmes. A programme name is classified by substring match after `toUpperCase` and `trim`.
- **Onboarding** (`Auth`, `Divisist`, `Moodle`): students sign in with a Firebase account and an institutional e-mail. A new student is registered from the Divisist record. The enrolment status comes from Divisist for pregrado and from Moodle for posgrado.
- **Biometric validation** (`Students`): every attempt is logged. A similarity of at least 90 approves the profile, and an approved profile is locked until it is reset.
- **Photo-change requests** (`PhotoRequests`): a student may ask for a new card photo three months after the last change, with at most one request pending at a time. An administrator answers a request once.
- **QR credential** (`Qr`): a prefixed signed token over the student code. Validation reports every failure the same way.

How the program is modelled:

- The database client is the class `Schema.Database`. Its five tables are fields: a map per table keyed by primary key, and a sequence for the append-only validation log.
- Each service is a class holding that client. Methods that write name the tables they change in `modifies`, and state the new contents of each table.
- The checks the services run before writing are functions. Each returns the exception it throws, or `None` when the write goes ahead.
- The foreign libraries are function-valued fields or parameters, never given bodies: bcrypt, the JWT signer and verifier, the QR renderer and `Date.setMonth`.
- The clock (`new Date()`) and the identifiers the database generates are method parameters.
- `findFirst` on a column that is not unique may return any matching row. It is modelled as a choice among the matching rows.

## Model

| member | source | states |
|---|---|---|
| Text.Upper | src/common/constants/careers.constant.ts:56 | `toUpperCase` keeps the length and maps every character on its own: a Latin-1 lower-case letter to its capital, anything else to itself |
| Text.TrimStart | src/common/constants/careers.constant.ts:56 | the result is a suffix of the input that does not start with ECMAScript white space, and everything removed is white space |
| Text.TrimEnd | src/common/constants/careers.constant.ts:56 | the result is a prefix of the input that does not end with ECMAScript white space, and everything removed is white space |
| Text.UpperIdempotent | src/common/constants/careers.constant.ts:56 | upper-casing twice is upper-casing once |
| Text.TrimCommutesWithUpper | src/common/constants/careers.constant.ts:56 | trimming after upper-casing equals upper-casing after trimming |
| Text.TrimIdempotent | src/common/constants/careers.constant.ts:56 | trimming twice is trimming once |
| Text.AllWhitespaceTrimsToEmpty | src/common/constants/careers.constant.ts:56 | a string made only of white space trims to '' |
| Text.TrimKeepsCore | src/common/constants/careers.constant.ts:56-58 | trimming `a + e + b` never cuts into a middle part `e` that starts and ends with non-white-space, so the result still includes `e` |
| Careers.SomeIncluded | src/common/constants/careers.constant.ts:57-59 | `entries.some(e => s.includes(e))` is true exactly when some entry occurs in `s` |
| Careers.NormalizeIdempotent | src/common/constants/careers.constant.ts:56 | normalizing a normalized name changes nothing |
| Careers.NormalizeEitherOrder | src/common/constants/careers.constant.ts:56 | `toUpperCase().trim()` equals trimming first and upper-casing after |
| Careers.ClassificationIgnoresCaseAndPadding | src/common/constants/careers.constant.ts:55-60 | both predicates give the same answer for a name, its upper-cased form, its trimmed form and its normalized form |
| Careers.NoEntryIsEmpty | src/common/constants/careers.constant.ts:5-50 | no entry of either list is empty |
| Careers.BlankCareerIsNeither | src/common/constants/careers.constant.ts:93-98 | an empty or white-space-only name is neither pregrado nor posgrado |
| Careers.SurroundedEntryIsIncluded | src/common/constants/careers.constant.ts:56-58 | the normalized form of any text around an upper-case, trimmed entry still includes that entry |
| Careers.SurroundedPregradoEntryIsPregrado | src/common/constants/careers.constant.ts:5-60 | an upper-case, trimmed pregrado entry with any text around it is pregrado: matching is inclusion, not equality |
| Careers.SurroundedPosgradoEntryIsPosgrado | src/common/constants/careers.constant.ts:66-98 | the same for the posgrado list |
| Careers.PublicLawMasterIsUpperTrimmed | src/common/constants/careers.constant.ts:79 | the public-law master's entry has no lower-case letter and no white space at either end |
| Careers.PublicLawMasterIsPosgrado | src/common/constants/careers.constant.ts:79 | the public-law master's entry is in the posgrado list and is classified posgrado |
| Careers.PublicLawMasterIsPregrado | src/common/constants/careers.constant.ts:37 | the public-law master's entry contains the pregrado entry "DERECHO", so it is also classified pregrado |
| Careers.PublicLawMasterIsBoth | src/common/constants/careers.constant.ts:37-98 | that entry satisfies both predicates |
| Divisist.OrEmpty | src/external-apis/divisist/divisist.service.ts:39-42 | `field \|\| ''` is the field when it is present and non-empty, and '' otherwise |
| Divisist.NormalizeStudentData | src/external-apis/divisist/divisist.service.ts:37-45 | the status is always MATRICULADO or NO_ACTIVO. It is MATRICULADO exactly when `estado` is present and upper-cases to MATRICULADO, and a missing `estado` gives NO_ACTIVO |
| Divisist.StatusIgnoresCase | src/external-apis/divisist/divisist.service.ts:43 | the status is the same whatever the letter case of `estado` |
| Divisist.LowerCaseMatriculadoIsEnrolled | src/external-apis/divisist/divisist.service.ts:43 | "matriculado" counts as enrolled and "RETIRADO" does not |
| Divisist.NormalizedFieldsDefaultToEmpty | src/external-apis/divisist/divisist.service.ts:39-42 | every text field is the record's value, or '' when that value is missing |
| Moodle.SelectUser | src/external-apis/moodle/moodle.service.ts:31 | the first element of a non-empty answer, and nothing for an empty or missing one |
| Moodle.ActiveIff | src/external-apis/moodle/moodle.service.ts:41-43 | active exactly when not suspended and `confirmed` is true. A missing `confirmed` means inactive, and a suspended user is inactive whatever `confirmed` says |
| RolesGuard.CanActivate | src/auth/guard/roles-auth.guard.ts:9-24 | admits exactly when there is no roles metadata or the user's role is listed. Otherwise the answer is Forbidden with the fixed message |
| RolesGuard.NeverFalse | src/auth/guard/roles-auth.guard.ts:9-24 | the guard never answers false. Every refusal is a 403 |
| RolesGuard.EmptyRolesAdmitNobody | src/auth/guard/roles-auth.guard.ts:12-21 | an empty roles list refuses everybody, while missing metadata admits everybody |
| RolesGuard.SuperAdminOnlyRoute | src/auth/guard/roles-auth.guard.ts:19-23 | a route limited to SuperAdmin admits exactly the SuperAdmins |
| JwtStrategy.Validate | src/auth/jwt.strategy.ts:17-35 | succeeds exactly for an existing ACTIVO administrator, and returns that row. Otherwise Unauthorized('Usuario inactivo o no válido') |
| JwtStrategy.MissingAndInactiveLookAlike | src/auth/jwt.strategy.ts:30-32 | a missing and an inactive administrator get the same answer |
| JwtStrategy.OnlySubjectMatters | src/auth/jwt.strategy.ts:18-19 | the answer depends only on `sub`. The role returned is the stored one, not the token's |
| AdminUsers.ListingsPartitionTable | src/user/user.service.ts:73-106 | `findAll` lists exactly the ACTIVO rows and `findInactive` exactly the INACTIVO ones, unchanged. Together they cover the table without overlap |
| AdminUsers.FindOne | src/user/user.service.ts:132-150 | the row of an existing id, NotFound otherwise |
| AdminUsers.ValidateActiveUser | src/user/user.service.ts:157-170 | passes exactly an existing ACTIVO administrator. Otherwise Unauthorized with the inactive-account message |
| AdminUsers.UpdateAllowedIff | src/user/user.service.ts:180-224 | `update`'s chain lets a change through exactly when the actor is active and the target exists. A role may change only on someone else and only by a SuperAdmin. A status may change only by a SuperAdmin and never to deactivate oneself |
| AdminUsers.InactiveActorRejectedFirst | src/user/user.service.ts:186-187 | an unknown or INACTIVO actor gets Unauthorized before any other check |
| AdminUsers.MissingTargetIsNotFound | src/user/user.service.ts:189-190 | an active actor updating an unknown id gets NotFound |
| AdminUsers.OwnRoleNeverChanges | src/user/user.service.ts:193-224 | supplying a role for oneself always fails. Therefore the SuperAdmin self-demotion message is never the answer |
| AdminUsers.PrivilegedChangesForbidden | src/user/user.service.ts:198-212 | a role or status change by a non-SuperAdmin, and any self-deactivation, is Forbidden |
| AdminUsers.ApplyUpdateKeepsUnsupplied | src/user/user.service.ts:227-239 | for each of the seven columns (name, last name, e-mail, status, role, password, creation date): the column takes the sent value when the body names it, and keeps its value otherwise. An empty body leaves the row as it is |
| AdminUsers.AnyActiveAdminCanSetPasswordHash | src/user/user.service.ts:180-229 | none of the checks looks at the password. Any active administrator, of either role, can set another administrator's stored hash to any value |
| AdminUsers.ApplyDeclaredUpdate | src/user/dto/update-user.dto.ts:4-24 | the update restricted to the five declared fields never changes the password or creation date. It agrees with ApplyUpdate on bodies that name neither |
| AdminUsers.LoginOutcomeOrder | src/user/user.service.ts:303-332 | an unknown e-mail and a wrong password give the same answer, and an inactive account is refused whatever the password. Success means active and matching, and the token is signed over (id, e-mail, role) |
| AdminUsers.LoginTokenValidates | src/user/user.service.ts:326-332 | the token's payload, checked by the JWT strategy, yields the same administrator |
| AdminUsers.UserService.Create | src/user/user.service.ts:36-67 | a taken e-mail gives BadRequest and the table is unchanged. Otherwise exactly one row is inserted, ACTIVO with the hashed password. Unique e-mails stay unique |
| AdminUsers.UserService.Update | src/user/user.service.ts:180-240 | a rejection by the check chain leaves the table unchanged. Otherwise only the target row changes, and every column the unvalidated body names is written, as ApplyUpdate says |
| AdminUsers.UserService.Remove | src/user/user.service.ts:283-289 | NotFound with the table unchanged, or exactly that row removed |
| AdminUsers.UserService.Login | src/user/user.service.ts:296-346 | the answer for some row with the e-mail. An unknown e-mail gives 'Credenciales inválidas'. A success is an active account with that e-mail whose password matches |
| Students.Verdict | src/student/student.service.ts:109-113 | APROBADO exactly when the similarity is at least 90 |
| Students.ProfileStatusFor | src/student/student.service.ts:115-118 | the profile status has the same verdict, and is never PENDIENTE |
| Students.WithApprovedPhoto | src/student/student.service.ts:140-148 | only the photo (when one is sent) and `updated_at` change |
| Students.BiometricRejection | src/student/student.service.ts:82-105 | an unknown student gets NotFound, then a missing profile BadRequest, then an approved profile BadRequest. An attempt passes exactly on an existing, non-approved profile |
| Students.NewestFirst | src/student/student.service.ts:209-214 | the history holds exactly the student's logged validations |
| Students.GetBiometricStatus | src/student/student.service.ts:199-257 | NotFound for a missing student or profile. `total_attempts` is the history's length, `can_retry` is "not APROBADO", and `last_validation` is null exactly for an empty history |
| Students.NewestFirstAppend | src/student/student.service.ts:123-129 | a logged attempt goes to the front of its student's history, and leaves other students' histories alone |
| Students.NewestFirstIsDescending | src/student/student.service.ts:211-213 | on a log in time order the history is in descending order of creation time |
| Students.AppendKeepsChronological | src/student/student.service.ts:123-129 | logging an attempt no earlier than the logged ones keeps the log in time order |
| Students.AttemptsAreCounted | src/student/student.service.ts:231 | `total_attempts` is the number of log rows of the student |
| Students.AcceptedAttemptIsReported | src/student/student.service.ts:120-148 | after an accepted attempt, the status page shows one more attempt, with this attempt as the last. It also shows the verdict's status, and a retry is possible exactly after a rejection |
| Students.ApprovedProfileIsLocked | src/student/student.service.ts:101-105 | an approved profile refuses every attempt. Whatever the validation log holds, its status page allows no retry |
| Students.ResetReopensValidation | src/student/student.service.ts:295-299 | after a reset the next attempt is no longer refused |
| Students.StudentService.GetStudentByEmail | src/student/student.service.ts:17-35 | a student with that e-mail, or NotFound exactly when there is none |
| Students.StudentService.GetStudentByCode | src/student/student.service.ts:42-60 | a student with that code, or NotFound exactly when there is none |
| Students.StudentService.UpdateBiometricProfile | src/student/student.service.ts:77-178 | a refusal leaves all tables unchanged. Otherwise: one log row is appended, the profile gets the verdict, and the student row changes only on approval. `success` is the approval, and the threshold is 90 |
| Students.StudentService.ResetBiometricProfile | src/student/student.service.ts:275-311 | both NotFound cases leave the profiles unchanged. Otherwise only that profile is set back to PENDIENTE, and the log is not touched |
| PhotoRequests.DaysCeil | src/photo-request/photo-request.service.ts:64-67 | `Math.ceil` of a positive number of milliseconds in days: at least 1, and the smallest d with d days ≥ the time left |
| PhotoRequests.CanRequestPhotoUpdate | src/photo-request/photo-request.service.ts:27-74 | NotFound for an unknown student. The reference date is `updated_at`, or `created_at` when it is unset. `canRequest` holds exactly when now ≥ reference + 3 months. If so, the next date and the days are null; otherwise they are that date and the days left, at least 1 |
| PhotoRequests.CreateRejection | src/photo-request/photo-request.service.ts:94-125 | checks in order: an unknown student (NotFound), then ineligibility (BadRequest with the next date and the days remaining from the eligibility check), then a pending request (Conflict) |
| PhotoRequests.RespondRejection | src/photo-request/photo-request.service.ts:295-318 | an unknown admin gets NotFound, then an unknown request NotFound. A request that is no longer PENDIENTE gets BadRequest naming its status. An answer passes exactly on a pending request |
| PhotoRequests.ResponseStatus | src/photo-request/photo-request.service.ts:320-323 | APROBADO exactly for the text "APROBADO", otherwise RECHAZADO. Never PENDIENTE |
| PhotoRequests.Answered | src/photo-request/photo-request.service.ts:320-334 | the answered request takes the dto's status: APROBADO exactly when the dto says "APROBADO", RECHAZADO otherwise. It records the admin and the time, and keeps its student, URL and date |
| PhotoRequests.WithRequestedPhoto | src/photo-request/photo-request.service.ts:342-350 | only the photo key and `updated_at` change |
| PhotoRequests.AnsweredBy | src/photo-request/photo-request.service.ts:449-472 | exactly the requests answered by the admin that are APROBADO or RECHAZADO, unchanged |
| PhotoRequests.FindByAdmin | src/photo-request/photo-request.service.ts:430-499 | NotFound for an unknown admin. Otherwise the answered requests, their number and the approved and rejected counts |
| PhotoRequests.ApprovedPlusRejectedIsTotal | src/photo-request/photo-request.service.ts:475-491 | approved + rejected = total |
| PhotoRequests.AnswerIsFinal | src/photo-request/photo-request.service.ts:313-318 | once answered, a request refuses every further answer, so it leaves PENDIENTE at most once |
| PhotoRequests.PhotoChangeRestartsWaiting | src/photo-request/photo-request.service.ts:342-350 | after an approved photo change, the student cannot ask again at that instant, and the next date is three months on |
| PhotoRequests.EligibilityPersists | src/photo-request/photo-request.service.ts:59 | once the waiting period is over it stays over |
| PhotoRequests.PhotoRequestService.Create | src/photo-request/photo-request.service.ts:89-164 | a refusal inserts nothing. Otherwise one PENDIENTE request is inserted, and it is then the student's only pending one. The table's integrity is kept |
| PhotoRequests.PhotoRequestService.RespondToRequest | src/photo-request/photo-request.service.ts:290-373 | a refusal changes neither table. Otherwise only that request is answered. The student row changes only for an approval with a non-empty URL, and then the photo key is that URL |
| Auth.ValidateUfpsEmail | src/auth/auth.service.ts:22-28 | passes exactly e-mails ending in '@ufps.edu.co'. Otherwise Unauthorized |
| Auth.InstitutionalEmails | src/auth/auth.service.ts:23 | any local part before the domain passes, and the domain followed by more text does not |
| Auth.StudentTypeAsWritten | src/auth/auth.service.ts:64-67 | PREGRADO exactly when the name matches the pregrado list, and POSGRADO otherwise |
| Auth.StudentTypeOf | src/auth/auth.service.ts:64-67 | POSGRADO for every name of the posgrado list. PREGRADO for a name matching only the pregrado list. POSGRADO for a name matching neither |
| Auth.StudentTypeDiffersOnlyOnOverlap | src/auth/auth.service.ts:64-67 | the two classifications differ exactly on names that match both lists |
| Auth.PublicLawMasterIsMisclassified | src/auth/auth.service.ts:64-67 | the public-law master's programme, listed as posgrado, is PREGRADO as written and POSGRADO as corrected |
| Auth.EnrollmentStatus | src/auth/auth.service.ts:70-85 | a pregrado student is MATRICULADO exactly when the Divisist status is. A posgrado student is MATRICULADO exactly when Moodle found a user and that user is active |
| Auth.DisplayName | src/auth/auth.service.ts:94 | the registry name if non-empty, otherwise the given name, otherwise '' |
| Auth.NewStudent | src/auth/auth.service.ts:64-105 | the registered row: the Firebase uid and e-mail, an empty photo URL, the Divisist code and career, the type by the code's own rule (StudentTypeAsWritten), and the status from the source that type selects |
| Auth.PublicLawMasterRegisteredAsPregrado | src/auth/auth.service.ts:64-86 | a student of the public-law master's programme is registered as PREGRADO. Their status follows the Divisist status, and Moodle's answer makes no difference |
| Auth.AuthService.LoginOrRegister | src/auth/auth.service.ts:33-115 | A non-institutional e-mail is refused first. A known Firebase account is returned unchanged. A student missing from the registry is refused. Otherwise exactly one student, NewStudent, and one PENDIENTE profile are inserted. Nothing changes in the refused and known cases, and uniqueness of Firebase accounts is kept |
| Auth.AuthService.Register | src/auth/auth.service.ts:87-108 | inserts exactly the given student and a PENDIENTE profile under the fresh id. The tables keep their integrity when no student holds the newcomer's Firebase account |
| Schema.RegistrationKeepsIntegrity | src/auth/auth.service.ts:87-108 | adding a student under a fresh id, whose Firebase account no student holds, and a profile under that id keeps the tables' integrity: every profile and request owned, and Firebase accounts unique |
| Qr.DecodedCode | src/qr/qr.service.ts:44-48 | the code of a verified token that names a non-empty code, and nothing otherwise |
| Qr.CreatedTokenRoundTrip | src/qr/qr.service.ts:22-59 | with a verifier that recovers what was signed, a created token is accepted exactly when the code is non-empty and some student has it |
| Qr.ScannedPayloadIsRejected | src/qr/qr.service.ts:42-44 | the input is verified as it is, prefix included. Take a verifier that accepts only signed tokens, none of which starts with the prefix. It never accepts the text scanned from a created QR |
| Qr.QrService.Create | src/qr/qr.service.ts:18-33 | the token is signed over the student code alone. The QR encodes 'UFPSCARNET:' + token, `expiresIn` is 3600, and `jwt` is that token |
| Qr.QrService.ValidateQrToken | src/qr/qr.service.ts:39-63 | succeeds exactly for a verified token whose code belongs to a student. It then returns `valid` and such a student. Every failure is Unauthorized('QR inválido o expirado') |

## Left out

Not modelled:

- HTTP calls:
  - the Divisist look-up (`DivisistService.getStudentByEmail`) and the Moodle request, with their environment variables and timeouts;
  - their answers, or their absence, are inputs of `LoginOrRegister`.
- Foreign libraries, represented only as function-valued parameters or fields:
  - JWT signing, verification and token expiry;
  - bcrypt hashing (including its random salt) and comparison;
  - QR image rendering;
  - `Date.setMonth` (`addMonths`).
- Prisma details: `select`/`include` projections and `orderBy`.
  - The only ordering modelled is the newest-first history of biometric validations. Ties in creation time are not ordered.
- The database schema file is not part of this model. As a result:
  - the role values are `SuperAdmin` and one other role, `Admin`;
  - a new student's `updated_at` is taken to be unset;
  - column defaults (ACTIVO, creation times) are taken from how the services read them;
  - unique constraints other than the Firebase uid, and the errors Prisma raises when one is broken, are not modelled.
- The messages that interpolate values are not modelled as text:
  - the eligibility refusal keeps the number of days and the date instead of the locale-formatted text;
  - the rejected-validation message with the similarity is left out.
- Floating-point formatting:
  - `approval_rate` (`toFixed`) in `findByAdmin`;
  - the `getStatistics` averages;
  - similarities are `real`.
- Other read-only listings of the photo-request service (`findAllPending`, `findByStudent`, `findOne`, `findAllApproved`, `getStatistics`): projections and orderings only.
- `updatePassword` (src/user/user.service.ts:248-276) spreads the whole dto, including `newPassword`, into the update data.
- Stub methods that only return a string: the update stub of the students service, the auth and QR stubs, and the biometric-profile service.
- Logging and the InternalServerError answers for unexpected database failures.
  - Exception: `RespondToRequest` answers InternalServerError when the request's student row is missing, because its transaction rolls back.
- Concurrency between requests: each service method is one atomic step.
  - `Schema.AtMostOnePending`, and the promise of `PhotoRequestService.Create` that the new request is the student's only pending one, rest on this.
  - The service looks for a pending request and then creates one in two separate database calls (src/photo-request/photo-request.service.ts:113-132), so two concurrent requests can both pass the check.
- A token whose `sub` is missing is not modelled. `JwtStrategy.Validate` takes a payload with a subject.

Other modelling choices:

- `findFirst` on a non-unique column:
  - `UserService.Login`, `GetStudentByEmail` and `GetStudentByCode` choose any matching row;
  - their contracts hold for every choice, and none assumes unique e-mails or codes.
- `Text.Upper` covers ASCII and Latin-1 letters, the alphabet of the career names:
  - other scripts are left as they are;
  - the letters that change length or leave Latin-1 under `toUpperCase` (ß, ÿ, µ) are left as they are.
- The biometric dto declares `card_photo_key`, while the service reads `card_photo_url`. The model keeps the field the service reads, as an optional value. A missing value leaves the stored photo unchanged, as Prisma does with `undefined`.
- The validation log stores the student's id as `biometric_id`, as the service writes it (src/student/student.service.ts:123-127).
  - The status page reads the history through the student's biometric-profile relation (src/student/student.service.ts:209-214).
  - The model reads it as the log rows whose `biometric_id` is the student's id, which assumes that a biometric profile's key is its student's id.
- Careers.SurroundedPregradoEntryIsPregrado: requires the entry to be upper-case and trimmed.
  - The catalogue entries are written that way, but the model proves it only for "DERECHO" and the public-law master's entry.
  - Checking it character by character for every long entry exceeds the verifier's resource limit.
- Careers.SurroundedPosgradoEntryIsPosgrado: the same requirement, for the same reason.
- PhotoRequests.PhotoChangeRestartsWaiting: assumes that three months after an instant is a later instant. It does not model the day overflow of `setMonth`.
- `Auth.NewStudent` and `LoginOrRegister` classify students by the code's own rule, `Auth.StudentTypeAsWritten`. The corrected rule `Auth.StudentTypeOf` is kept beside it (see Findings).
- The update body is open because no validation pipe is installed. Its model adds the `password` and `created_at` columns to the five declared fields. Not modelled:
  - a body that names the id column;
  - a body that names an unknown column, which Prisma refuses at run time;
  - a value of the wrong type, such as an unknown role or status.

## Findings

| source | as written | input that shows it | evidently intended | confidence | as-written member | corrected member |
|---|---|---|---|---|---|---|
| src/auth/auth.service.ts:64-67 with src/common/constants/careers.constant.ts:37,79 | the student type is PREGRADO whenever the programme name contains a pregrado entry, and `isCareerPosgrado` is never consulted | the Divisist programme "MAESTRÍA EN DERECHO PÚBLICO: GOBIERNO, JUSTICIA Y DERECHOS HUMANOS" contains the pregrado entry "DERECHO", so a master's student is registered as PREGRADO and their status is taken from Divisist instead of Moodle | a programme of the posgrado catalogue is POSGRADO | medium, not executed | Auth.StudentTypeAsWritten (shown by Auth.PublicLawMasterIsMisclassified) | Auth.StudentTypeOf |
| src/user/user.service.ts:227-229 with src/main.ts:9-22 | the PATCH body is passed to Prisma as the update data, and no validation pipe strips the properties `UpdateUserDto` does not declare | an active Admin sends `{"password": h}` for a SuperAdmin's id. Every check passes, and the SuperAdmin's stored hash becomes `h` | only the declared name, last name, e-mail, status and role can be changed | medium, not executed | AdminUsers.ApplyUpdate (shown by AdminUsers.AnyActiveAdminCanSetPasswordHash) | AdminUsers.ApplyDeclaredUpdate |

The services follow the code as written. Each corrected member stands beside its as-written member, and the intended property is proved about it.

=== FILE: auth_service.dfy ===
/** Student onboarding. A student signs in with a Firebase account; an
    institutional e-mail is required, a known account is returned as it is,
    and an unknown one is registered from the undergraduate registry
    (Divisist): the programme name decides whether the student is
    undergraduate or graduate, and the enrolment status comes from Divisist
    for the former and from Moodle for the latter. */
module Auth {
  import opened Common
  import opened Text
  import opened Schema
  import opened Careers
  import Divisist
  import opened Moodle

  const UFPS_DOMAIN: string := "@ufps.edu.co"
  const NOT_INSTITUTIONAL: string := "Solo se permiten correos institucionales @ufps.edu.co"
  const NOT_IN_REGISTRY: string :=
    "No se encontró información del estudiante en los sistemas institucionales. "
    + "Por favor contacte con soporte."

  /** The sign-in body: the Firebase uid, the account's e-mail and, when the
      client sends one, a display name. */
  datatype LoginStudentDto = LoginStudentDto(uid: string, email: string, name: Option<string>)

  /** `validateUfpsEmail`: the error it throws, `None` when it lets the
      e-mail through. */
  function ValidateUfpsEmail(email: string): (e: Option<HttpError>)
    ensures e.None? <==> EndsWith(email, UFPS_DOMAIN)
    ensures e.Some? ==> e.value == Unauthorized(NOT_INSTITUTIONAL)
  {
    if EndsWith(email, UFPS_DOMAIN) then None else Some(Unauthorized(NOT_INSTITUTIONAL))
  }

  /** Any local part followed by the institutional domain is accepted; an
      address that only contains the domain somewhere else is not. */
  lemma InstitutionalEmails(local: string)
    ensures ValidateUfpsEmail(local + UFPS_DOMAIN).None?
    ensures ValidateUfpsEmail(local + UFPS_DOMAIN + ".com").Some?
  {
    var e := local + UFPS_DOMAIN;
    assert e[|e| - |UFPS_DOMAIN|..] == UFPS_DOMAIN;
    var f := e + ".com";
    assert f[|f| - 1] == 'm' && UFPS_DOMAIN[|UFPS_DOMAIN| - 1] == 'o';
  }

  /** The student type as `loginOrRegister` computes it: undergraduate
      whenever the programme name matches the undergraduate list, and
      graduate in every other case. */
  function StudentTypeAsWritten(career: string): (t: StudentType)
    ensures t == PREGRADO <==> IsCareerPregrado(career)
    ensures t == POSGRADO <==> !IsCareerPregrado(career)
  {
    if IsCareerPregrado(career) then PREGRADO else POSGRADO
  }

  /** The student type with the graduate list consulted first, so that a
      programme of the graduate catalogue is always graduate. Names that match
      only one list, or neither, are classified as before. */
  function StudentTypeOf(career: string): (t: StudentType)
    ensures IsCareerPosgrado(career) ==> t == POSGRADO
    ensures IsCareerPregrado(career) && !IsCareerPosgrado(career) ==> t == PREGRADO
    ensures !IsCareerPregrado(career) ==> t == POSGRADO
  {
    if IsCareerPosgrado(career) then POSGRADO
    else if IsCareerPregrado(career) then PREGRADO
    else POSGRADO
  }

  /** The two classifications differ exactly on names that match both lists. */
  lemma StudentTypeDiffersOnlyOnOverlap(career: string)
    ensures StudentTypeAsWritten(career) != StudentTypeOf(career)
            <==> IsCareerPregrado(career) && IsCareerPosgrado(career)
  {
  }

  /** The public-law master's programme is listed as graduate, yet as written
      it is classified undergraduate, because its name contains the
      undergraduate programme "DERECHO". */
  lemma PublicLawMasterIsMisclassified()
    ensures MAESTRIA_DERECHO_PUBLICO in POSGRADO_CAREERS
    ensures StudentTypeAsWritten(MAESTRIA_DERECHO_PUBLICO) == PREGRADO
    ensures StudentTypeOf(MAESTRIA_DERECHO_PUBLICO) == POSGRADO
  {
    PublicLawMasterIsBoth();
  }

  /** The enrolment status of a new student: the Divisist status for an
      undergraduate, the Moodle account for a graduate. */
  function EnrollmentStatus(studentType: StudentType, normalized: Divisist.NormalizedStudent,
                            moodleResponse: Option<seq<MoodleUserData>>): (s: StudentStatus)
    ensures studentType == PREGRADO ==>
              (s == StudentStatus.MATRICULADO <==> normalized.status == Divisist.MATRICULADO)
    ensures studentType == POSGRADO ==>
              (s == StudentStatus.MATRICULADO <==>
                 SelectUser(moodleResponse).Some? && IsUserActive(SelectUser(moodleResponse).value))
  {
    if studentType == PREGRADO then
      (if normalized.status == Divisist.MATRICULADO then StudentStatus.MATRICULADO else StudentStatus.NO_ACTIVO)
    else
      var user := SelectUser(moodleResponse);
      if user.Some? && IsUserActive(user.value) then StudentStatus.MATRICULADO else StudentStatus.NO_ACTIVO
  }

  /** `normalized.name || name || ''` */
  function DisplayName(registryName: string, given: Option<string>): (n: string)
    ensures registryName != [] ==> n == registryName
    ensures registryName == [] && given.Some? ==> n == given.value
    ensures registryName == [] && given.None? ==> n == []
  {
    if registryName != [] then registryName
    else if given.Some? && given.value != [] then given.value
    else ""
  }

  /** The row registered for a new student. */
  function NewStudent(dto: LoginStudentDto, data: Divisist.DivisistStudentData,
                      moodleResponse: Option<seq<MoodleUserData>>, now: Time): (s: Student)
    ensures var normalized := Divisist.NormalizeStudentData(data);
            s.firebaseId == dto.uid && s.email == dto.email
            && s.cardPhotoUrl == [] && s.cardPhotoKey.None?
            && s.studentCode == normalized.studentCode && s.career == normalized.career
            && s.studentType == StudentTypeAsWritten(normalized.career)
            && s.status == EnrollmentStatus(s.studentType, normalized, moodleResponse)
            && s.name == DisplayName(normalized.name, dto.name)
            && s.createdAt == now && s.updatedAt.None? && s.lastSyncAt == now
  {
    var normalized := Divisist.NormalizeStudentData(data);
    var studentType := StudentTypeAsWritten(normalized.career);
    Student(dto.uid, normalized.studentCode, "", None, dto.email, DisplayName(normalized.name, dto.name),
            normalized.lastName, studentType, normalized.career,
            EnrollmentStatus(studentType, normalized, moodleResponse), now, None, now)
  }

  /** A student of the public-law master's programme is registered as an
      undergraduate, and their enrolment status is taken from Divisist:
      Moodle's answer plays no part. */
  lemma PublicLawMasterRegisteredAsPregrado(dto: LoginStudentDto, data: Divisist.DivisistStudentData,
                                            moodleResponse: Option<seq<MoodleUserData>>,
                                            otherResponse: Option<seq<MoodleUserData>>, now: Time)
    requires Divisist.NormalizeStudentData(data).career == MAESTRIA_DERECHO_PUBLICO
    ensures NewStudent(dto, data, moodleResponse, now).studentType == PREGRADO
    ensures NewStudent(dto, data, moodleResponse, now) == NewStudent(dto, data, otherResponse, now)
    ensures NewStudent(dto, data, moodleResponse, now).status == StudentStatus.MATRICULADO
            <==> data.estado.Some? && Upper(data.estado.value) == Divisist.MATRICULADO
  {
    PublicLawMasterIsMisclassified();
  }

  /** Some student is linked to the Firebase account. */
  predicate FirebaseRegistered(students: map<StudentId, Student>, uid: string) {
    exists id :: id in students && students[id].firebaseId == uid
  }

  /** The onboarding service over the database client `db`. */
  class AuthService {
    const db: Database

    constructor (db: Database)
      ensures this.db == db
    {
      this.db := db;
    }

    /** `loginOrRegister`. `divisistData` is the registry's answer for the
        e-mail and `moodleResponse` Moodle's; the fresh id `newId` is used
        when a student is registered, together with its PENDIENTE biometric
        profile. */
    method LoginOrRegister(dto: LoginStudentDto, divisistData: Option<Divisist.DivisistStudentData>,
                           moodleResponse: Option<seq<MoodleUserData>>, newId: StudentId, now: Time)
      returns (r: Result<Student>)
      requires newId !in db.students
      modifies db`students, db`profiles
      ensures !EndsWith(dto.email, UFPS_DOMAIN) ==>
        r == Err(Unauthorized(NOT_INSTITUTIONAL))
        && db.students == old(db.students) && db.profiles == old(db.profiles)
      ensures EndsWith(dto.email, UFPS_DOMAIN) && FirebaseRegistered(old(db.students), dto.uid) ==>
        r.Ok? && r.value in old(db.students).Values && r.value.firebaseId == dto.uid
        && db.students == old(db.students) && db.profiles == old(db.profiles)
      ensures EndsWith(dto.email, UFPS_DOMAIN) && !FirebaseRegistered(old(db.students), dto.uid)
              && divisistData.None? ==>
        r == Err(Unauthorized(NOT_IN_REGISTRY))
        && db.students == old(db.students) && db.profiles == old(db.profiles)
      ensures EndsWith(dto.email, UFPS_DOMAIN) && !FirebaseRegistered(old(db.students), dto.uid)
              && divisistData.Some? ==>
        r == Ok(NewStudent(dto, divisistData.value, moodleResponse, now))
        && db.students == old(db.students)[newId := NewStudent(dto, divisistData.value, moodleResponse, now)]
        && db.profiles == old(db.profiles)[newId := BiometricProfile(BiometricStatus.PENDIENTE)]
      ensures old(db.Valid()) ==> db.Valid()
    {
      var invalid := ValidateUfpsEmail(dto.email);
      if invalid.Some? {
        return Err(invalid.value);
      }
      if FirebaseRegistered(db.students, dto.uid) {
        var id :| id in db.students && db.students[id].firebaseId == dto.uid;
        return Ok(db.students[id]);
      }
      if divisistData.None? {
        return Err(Unauthorized(NOT_IN_REGISTRY));
      }
      var student := NewStudent(dto, divisistData.value, moodleResponse, now);
      Register(student, newId);
      r := Ok(student);
    }

    /** The registration step of `loginOrRegister`: the new student row and
        its PENDIENTE profile, both under the fresh id `newId`. */
    method Register(student: Student, newId: StudentId)
      requires newId !in db.students && !FirebaseRegistered(db.students, student.firebaseId)
      modifies db`students, db`profiles
      ensures db.students == old(db.students)[newId := student]
      ensures db.profiles == old(db.profiles)[newId := BiometricProfile(BiometricStatus.PENDIENTE)]
      ensures old(db.Valid()) ==> db.Valid()
    {
      RegistrationKeepsIntegrity(db.students, db.profiles, db.photoRequests, newId, student,
                                 BiometricProfile(BiometricStatus.PENDIENTE));
      db.students := db.students[newId := student];
      db.profiles := db.profiles[newId := BiometricProfile(BiometricStatus.PENDIENTE)];
    }
  }
}

=== FILE: careers.dfy ===
/** The catalogue of UFPS programmes and the two predicates that classify a
    programme name reported by the institutional systems as undergraduate
    (pregrado) or graduate (posgrado). A name is classified by substring
    match: it belongs to a list when, upper-cased and trimmed, it includes
    one of the list's entries. */
module Careers {
  import opened Text

  /** Undergraduate programmes, in catalogue order. */
  const PREGRADO_CAREERS: seq<string> := [
    "INGENIERÍA MECÁNICA",
    "INGENIERÍA CIVIL",
    "INGENIERÍA ELECTROMECÁNICA",
    "INGENIERÍA DE SISTEMAS",
    "INGENIERÍA ELECTRÓNICA",
    "INGENIERÍA INDUSTRIAL",
    "INGENIERÍA DE MINAS",
    "TEC. EN OBRAS CIVILES",
    "TEC. EN PROCESOS INDUSTRIALES",
    "TEC. EN ANALÍTICA DE DATOS",
    "INGENIERÍA BIOTECNOLÓGICA",
    "INGENIERÍA AMBIENTAL",
    "INGENIERÍA AGRONÓMICA",
    "INGENIERÍA AGROINDUSTRIAL",
    "ZOOTECNIA",
    "QUÍMICA INDUSTRIAL",
    "ADMINISTRACIÓN DE EMPRESAS",
    "CONTADURÍA PÚBLICA",
    "COMERCIO INTERNACIONAL",
    "LICENCIATURA EN MATEMÁTICAS",
    "COMUNICACIÓN SOCIAL",
    "ARQUITECTURA",
    "DERECHO",
    "TRABAJO SOCIAL",
    "LICENCIATURA EN EDUCACIÓN INFANTIL",
    "LICENCIATURA EN CIENCIAS NATURALES Y EDUCACIÓN AMBIENTAL",
    "ENFERMERÍA",
    "SEGURIDAD Y SALUD EN EL TRABAJO",
    "LICENCIATURA EN EDUCACIÓN COMUNITARIA",
    "TECNOLOGÍA EN CONSTRUCCIONES CIVILES",
    "TECNOLOGÍA EN REGENCIA DE FARMACIA"
  ]

  /** The public-law master's programme, written in three pieces so that its
      words can be inspected one piece at a time; the value is the single
      catalogue name. */
  const MAESTRIA_DERECHO_PUBLICO: string :=
    "MAESTRÍA EN " + "DERECHO PÚBLICO: GOBIERNO, " + "JUSTICIA Y DERECHOS HUMANOS"

  /** Graduate programmes (doctorate, master's, specialisations), in catalogue
      order. */
  const POSGRADO_CAREERS: seq<string> := [
    "DOCTORADO EN EDUCACIÓN",
    "MAESTRÍA EN GERENCIA DE EMPRESAS",
    "MAESTRÍA EN ESTUDIOS SOCIALES Y EDUCACIÓN PARA LA PAZ",
    "MAESTRÍA EN INGENIERÍA DE RECURSOS HIDRÁULICOS",
    "MAESTRÍA EN TECNOLOGÍAS DE LA INFORMACIÓN Y LA COMUNICACIÓN APLICADAS A LA EDUCACIÓN",
    "MAESTRÍA EN EDUCACIÓN MATEMÁTICA",
    "MAESTRÍA EN PRÁCTICA PEDAGÓGICA",
    "MAESTRÍA EN CIENCIAS BIOLÓGICAS",
    "MAESTRÍA EN NEGOCIOS INTERNACIONALES",
    MAESTRIA_DERECHO_PUBLICO,
    "ESPECIALIZACIÓN EN PRÁCTICA PEDAGÓGICA",
    "ESPECIALIZACIÓN EN ESTRUCTURAS",
    "ESPECIALIZACIÓN EN LOGÍSTICA Y NEGOCIOS INTERNACIONALES",
    "ESPECIALIZACIÓN EN EDUCACIÓN, EMPRENDIMIENTO Y ECONOMÍA SOLIDARIA",
    "ESPECIALIZACIÓN EN EDUCACIÓN PARA LA ATENCIÓN A POBLACIÓN AFECTADA POR EL CONFLICTO ARMADO Y EN PROBLEMÁTICA FRONTERIZA",
    "ESPECIALIZACIÓN EN EDUCACIÓN MEDIADA POR LAS TIC"
  ]

  /** `career.toUpperCase().trim()` */
  function NormalizeCareer(career: string): string {
    Trim(Upper(career))
  }

  /** `entries.some(entry => s.includes(entry))`: true exactly when some entry
      occurs in `s`. */
  function SomeIncluded(entries: seq<string>, s: string): (b: bool)
    ensures b <==> exists k :: 0 <= k < |entries| && Contains(s, entries[k])
    decreases |entries|
  {
    if entries == [] then false
    else Contains(s, entries[0]) || SomeIncluded(entries[1..], s)
  }

  /** `isCareerPregrado` */
  predicate IsCareerPregrado(career: string) {
    SomeIncluded(PREGRADO_CAREERS, NormalizeCareer(career))
  }

  /** `isCareerPosgrado`: the same construction over the graduate list. */
  predicate IsCareerPosgrado(career: string) {
    SomeIncluded(POSGRADO_CAREERS, NormalizeCareer(career))
  }

  /** Normalizing twice is normalizing once. */
  lemma NormalizeIdempotent(career: string)
    ensures NormalizeCareer(NormalizeCareer(career)) == NormalizeCareer(career)
  {
    var x := Upper(career);
    TrimCommutesWithUpper(x);
    UpperIdempotent(career);
    TrimIdempotent(x);
  }

  /** Upper-casing first and trimming after, as the code does, is the same as
      trimming first and upper-casing after. */
  lemma NormalizeEitherOrder(career: string)
    ensures NormalizeCareer(career) == Upper(Trim(career))
  {
    TrimCommutesWithUpper(career);
  }

  /** The classification sees only the normalized name: changing the case of
      letters or the white space around the name changes neither predicate. */
  lemma ClassificationIgnoresCaseAndPadding(career: string)
    ensures IsCareerPregrado(Upper(career)) == IsCareerPregrado(career)
    ensures IsCareerPregrado(Trim(career)) == IsCareerPregrado(career)
    ensures IsCareerPregrado(NormalizeCareer(career)) == IsCareerPregrado(career)
    ensures IsCareerPosgrado(Upper(career)) == IsCareerPosgrado(career)
    ensures IsCareerPosgrado(Trim(career)) == IsCareerPosgrado(career)
    ensures IsCareerPosgrado(NormalizeCareer(career)) == IsCareerPosgrado(career)
  {
    UpperIdempotent(career);
    TrimCommutesWithUpper(career);
    TrimIdempotent(Upper(career));
    NormalizeIdempotent(career);
  }

  lemma {:induction false} NoEntryIsEmpty()
    ensures forall k :: 0 <= k < |PREGRADO_CAREERS| ==> |PREGRADO_CAREERS[k]| > 0
    ensures forall k :: 0 <= k < |POSGRADO_CAREERS| ==> |POSGRADO_CAREERS[k]| > 0
  {
  }

  /** An empty or blank career name is neither undergraduate nor graduate,
      because no catalogue entry is empty. */
  lemma BlankCareerIsNeither(career: string)
    requires forall i :: 0 <= i < |career| ==> IsJsWhitespace(career[i])
    ensures !IsCareerPregrado(career) && !IsCareerPosgrado(career)
  {
    forall i | 0 <= i < |career| ensures IsJsWhitespace(Upper(career)[i]) {
      UpperCharKeepsWhitespace(career[i]);
    }
    AllWhitespaceTrimsToEmpty(Upper(career));
    NoEntryIsEmpty();
  }

  /** An entry that is already upper-case and trimmed is included in the
      normalized form of any name that surrounds it with further text. */
  lemma SurroundedEntryIsIncluded(prefix: string, e: string, suffix: string)
    requires e != [] && IsUpperTrimmed(e)
    ensures Contains(NormalizeCareer(prefix + e + suffix), e)
  {
    UpperTrimmedIsFixed(e);
    UpperConcat(prefix, e);
    UpperConcat(prefix + e, suffix);
    TrimKeepsCore(Upper(prefix), e, Upper(suffix));
  }

  /** A catalogue entry that is already upper-case and trimmed classifies its
      own list, and so does any name that surrounds it with further text:
      matching is inclusion, not equality. */
  lemma SurroundedPregradoEntryIsPregrado(prefix: string, k: nat, suffix: string)
    requires k < |PREGRADO_CAREERS| && IsUpperTrimmed(PREGRADO_CAREERS[k])
    ensures IsCareerPregrado(prefix + PREGRADO_CAREERS[k] + suffix)
  {
    NoEntryIsEmpty();
    SurroundedEntryIsIncluded(prefix, PREGRADO_CAREERS[k], suffix);
  }

  /** The same for the graduate list. */
  lemma SurroundedPosgradoEntryIsPosgrado(prefix: string, k: nat, suffix: string)
    requires k < |POSGRADO_CAREERS| && IsUpperTrimmed(POSGRADO_CAREERS[k])
    ensures IsCareerPosgrado(prefix + POSGRADO_CAREERS[k] + suffix)
  {
    NoEntryIsEmpty();
    SurroundedEntryIsIncluded(prefix, POSGRADO_CAREERS[k], suffix);
  }

  lemma PublicLawMasterPiecesHaveNoLowerLetter()
    ensures HasNoLowerLetter("MAESTRÍA EN ")
    ensures HasNoLowerLetter("DERECHO PÚBLICO: GOBIERNO, ")
    ensures HasNoLowerLetter("JUSTICIA Y DERECHOS HUMANOS")
  {
  }

  lemma PublicLawMasterIsUpperTrimmed()
    ensures IsUpperTrimmed(MAESTRIA_DERECHO_PUBLICO)
  {
    var a, b, c := "MAESTRÍA EN ", "DERECHO PÚBLICO: GOBIERNO, ", "JUSTICIA Y DERECHOS HUMANOS";
    PublicLawMasterPiecesHaveNoLowerLetter();
    NoLowerLetterJoin(a, b);
    NoLowerLetterJoin(a + b, c);
    var m := MAESTRIA_DERECHO_PUBLICO;
    assert m[0] == a[0];
    assert m[|m| - 1] == c[|c| - 1];
  }

  lemma PublicLawMasterIsPosgrado()
    ensures MAESTRIA_DERECHO_PUBLICO in POSGRADO_CAREERS
    ensures IsCareerPosgrado(MAESTRIA_DERECHO_PUBLICO)
  {
    var m := MAESTRIA_DERECHO_PUBLICO;
    PublicLawMasterIsUpperTrimmed();
    UpperTrimmedIsFixed(m);
    assert POSGRADO_CAREERS[9] == m;
    assert Contains(NormalizeCareer(m), POSGRADO_CAREERS[9]) by {
      assert m <= m[0..];
    }
  }

  lemma PublicLawMasterSurroundsDerecho()
    ensures MAESTRIA_DERECHO_PUBLICO
            == "MAESTRÍA EN " + "DERECHO" + (" PÚBLICO: GOBIERNO, " + "JUSTICIA Y DERECHOS HUMANOS")
  {
    assert "DERECHO PÚBLICO: GOBIERNO, " == "DERECHO" + " PÚBLICO: GOBIERNO, ";
  }

  lemma PublicLawMasterIsPregrado()
    ensures IsCareerPregrado(MAESTRIA_DERECHO_PUBLICO)
  {
    var a, c := "MAESTRÍA EN ", " PÚBLICO: GOBIERNO, " + "JUSTICIA Y DERECHOS HUMANOS";
    assert PREGRADO_CAREERS[22] == "DERECHO";
    assert IsUpperTrimmed("DERECHO");
    PublicLawMasterSurroundsDerecho();
    SurroundedPregradoEntryIsPregrado(a, 22, c);
  }

  /** The undergraduate entry "DERECHO" occurs inside the graduate entry for
      the public-law master's programme, so that exact programme name
      satisfies both predicates. */
  lemma PublicLawMasterIsBoth()
    ensures MAESTRIA_DERECHO_PUBLICO in POSGRADO_CAREERS
    ensures IsCareerPregrado(MAESTRIA_DERECHO_PUBLICO)
    ensures IsCareerPosgrado(MAESTRIA_DERECHO_PUBLICO)
  {
    PublicLawMasterIsPosgrado();
    PublicLawMasterIsPregrado();
  }
}

=== FILE: common.dfy ===
/** Values shared by every service of the card backend: optional values, the HTTP
    exceptions the NestJS services throw, and a result type that carries either
    a value or one of those exceptions. */
module Common {

  datatype Option<+T> = None | Some(value: T) {
    function GetOr(default: T): T {
      match this
      case Some(v) => v
      case None => default
    }
  }

  /** Milliseconds since the epoch, as a JavaScript `Date` holds them. */
  type Time = int

  const MS_PER_DAY: int := 1000 * 60 * 60 * 24

  /** The exceptions of `@nestjs/common` that the services throw. The message is
      the Spanish text the service passes to the exception. `WaitBeforeRequest`
      is the BadRequest of photo-request eligibility, whose text interpolates the
      remaining days and a locale-formatted date; the model keeps those two
      values instead of the text. */
  datatype HttpError =
    | BadRequest(message: string)
    | WaitBeforeRequest(daysRemaining: int, nextAvailableDate: Time)
    | Unauthorized(message: string)
    | Forbidden(message: string)
    | NotFound(message: string)
    | Conflict(message: string)
    | InternalServerError(message: string)
  {
    /** The HTTP status code NestJS answers with. */
    function Code(): nat {
      match this
      case BadRequest(_) => 400
      case WaitBeforeRequest(_, _) => 400
      case Unauthorized(_) => 401
      case Forbidden(_) => 403
      case NotFound(_) => 404
      case Conflict(_) => 409
      case InternalServerError(_) => 500
    }
  }

  datatype Result<+T> = Ok(value: T) | Err(error: HttpError)

  /** `s.endsWith(suffix)` */
  predicate EndsWith(s: string, suffix: string) {
    |suffix| <= |s| && s[|s| - |suffix|..] == suffix
  }
}

=== FILE: divisist.dfy ===
/** The normalization of a Divisist student record (the undergraduate
    registry) into the fields the onboarding flow reads. The HTTP lookup that
    fetches the record is not part of this model: the record, or its absence,
    is an input of the onboarding flow. */
module Divisist {
  import opened Common
  import opened Text

  /** The JSON record Divisist answers with; every field may be missing. */
  datatype DivisistStudentData = DivisistStudentData(
    codigo: Option<string>,
    nombres: Option<string>,
    apellidos: Option<string>,
    programa: Option<string>,
    estado: Option<string>)

  datatype NormalizedStudent = NormalizedStudent(
    studentCode: string,
    name: string,
    lastName: string,
    career: string,
    status: string)

  const MATRICULADO: string := "MATRICULADO"
  const NO_ACTIVO: string := "NO_ACTIVO"

  /** `field || ''`: a missing field and an empty one both become ''. */
  function OrEmpty(field: Option<string>): (s: string)
    ensures field.Some? && field.value != [] ==> s == field.value
    ensures field.None? || field.value == [] ==> s == []
  {
    if field.Some? then field.value else ""
  }

  /** `normalizeStudentData` */
  function NormalizeStudentData(data: DivisistStudentData): (r: NormalizedStudent)
    ensures r.status == MATRICULADO || r.status == NO_ACTIVO
    ensures r.status == MATRICULADO <==> data.estado.Some? && Upper(data.estado.value) == MATRICULADO
    ensures data.estado.None? ==> r.status == NO_ACTIVO
  {
    NormalizedStudent(
      OrEmpty(data.codigo),
      OrEmpty(data.nombres),
      OrEmpty(data.apellidos),
      OrEmpty(data.programa),
      if data.estado.Some? && Upper(data.estado.value) == MATRICULADO then MATRICULADO else NO_ACTIVO)
  }

  /** The enrolment status ignores letter case: a registry that reports the
      status in lower or mixed case yields the same normalized status as one
      that reports it upper-cased. */
  lemma StatusIgnoresCase(data: DivisistStudentData, estado: string)
    ensures NormalizeStudentData(data.(estado := Some(estado))).status
         == NormalizeStudentData(data.(estado := Some(Upper(estado)))).status
  {
    UpperIdempotent(estado);
  }

  /** A concrete instance: "matriculado" in lower case counts as enrolled,
      while any other word, such as "RETIRADO", does not. */
  lemma LowerCaseMatriculadoIsEnrolled(data: DivisistStudentData)
    ensures NormalizeStudentData(data.(estado := Some("matriculado"))).status == MATRICULADO
    ensures NormalizeStudentData(data.(estado := Some("RETIRADO"))).status == NO_ACTIVO
  {
    assert Upper("matriculado") == MATRICULADO;
    assert |Upper("RETIRADO")| != |MATRICULADO|;
  }

  /** Every text field of the result is the registry's value when that value
      is present and non-empty, and '' otherwise. */
  lemma NormalizedFieldsDefaultToEmpty(data: DivisistStudentData)
    ensures NormalizeStudentData(data).studentCode == data.codigo.GetOr("")
    ensures NormalizeStudentData(data).name == data.nombres.GetOr("")
    ensures NormalizeStudentData(data).lastName == data.apellidos.GetOr("")
    ensures NormalizeStudentData(data).career == data.programa.GetOr("")
  {
  }
}

=== FILE: jwt_strategy.dfy ===
/** The Passport strategy that turns a verified administrator token into the
    administrator it names. Signature and expiry checks belong to the JWT
    library and happen before this step; the model starts from the decoded
    payload. */
module JwtStrategy {
  import opened Common
  import opened Schema

  /** The claims an administrator token carries. */
  datatype JwtPayload = JwtPayload(sub: AdminId, email: string, role: AdminRole)

  const INVALID_USER: string := "Usuario inactivo o no válido"

  /** `validate`: looks the administrator up by `payload.sub` and admits only
      an existing, active one. It reads the admin table and changes nothing. */
  function Validate(admins: map<AdminId, AdminUser>, payload: JwtPayload): (r: Result<AdminUser>)
    ensures r.Ok? <==> payload.sub in admins && admins[payload.sub].status.ACTIVO?
    ensures r.Ok? ==> r.value == admins[payload.sub]
    ensures r.Err? ==> r.error == Unauthorized(INVALID_USER)
  {
    if payload.sub !in admins || admins[payload.sub].status == INACTIVO then
      Err(Unauthorized(INVALID_USER))
    else
      Ok(admins[payload.sub])
  }

  /** A missing and an inactive administrator are indistinguishable to the
      caller: both get the same Unauthorized answer. */
  lemma MissingAndInactiveLookAlike(admins: map<AdminId, AdminUser>, p: JwtPayload, q: JwtPayload)
    requires p.sub !in admins
    requires q.sub in admins && admins[q.sub].status == INACTIVO
    ensures Validate(admins, p) == Validate(admins, q)
  {
  }

  /** The answer depends only on `sub`: the role and e-mail written in the
      token are not trusted; the role returned is the one stored in the
      table. */
  lemma OnlySubjectMatters(admins: map<AdminId, AdminUser>, p: JwtPayload, q: JwtPayload)
    requires p.sub == q.sub
    ensures Validate(admins, p) == Validate(admins, q)
    ensures Validate(admins, p).Ok? ==> Validate(admins, p).value.role == admins[p.sub].role
  {
  }
}

=== FILE: moodle.dfy ===
/** The two pure rules of the Moodle client (the platform that knows graduate
    students): which entry of a lookup answer is used, and when a Moodle user
    counts as active. The HTTP request itself is not part of this model. */
module Moodle {
  import opened Common

  /** The fields of a Moodle user record the service reads. */
  datatype MoodleUserData = MoodleUserData(suspended: Option<bool>, confirmed: Option<bool>)

  /** The user `getUserByEmail` returns for a lookup answer: the first element
      of a non-empty array, and nothing for a missing or empty one. */
  function SelectUser(response: Option<seq<MoodleUserData>>): (u: Option<MoodleUserData>)
    ensures u.Some? <==> response.Some? && |response.value| > 0
    ensures u.Some? ==> u.value == response.value[0]
  {
    if response.Some? && |response.value| > 0 then Some(response.value[0]) else None
  }

  /** `!userData.suspended && userData.confirmed === true` */
  predicate IsUserActive(user: MoodleUserData) {
    !user.suspended.GetOr(false) && user.confirmed == Some(true)
  }

  /** Active exactly when the user is not suspended and is explicitly
      confirmed: a missing `confirmed` means inactive, a missing `suspended`
      means not suspended, and a suspended user is inactive whatever
      `confirmed` says. */
  lemma ActiveIff(user: MoodleUserData)
    ensures IsUserActive(user) <==> user.suspended != Some(true) && user.confirmed == Some(true)
    ensures user.confirmed.None? ==> !IsUserActive(user)
    ensures user.suspended == Some(true) ==> !IsUserActive(user)
  {
  }
}

=== FILE: photo_request_service.dfy ===
/** The photo-change request workflow. A student may ask for a new card photo
    once three months have passed since the last change (or since the
    account was created), and only while no other request of theirs is
    pending; an administrator answers a pending request once, approving or
    rejecting it, and an approval with a photo installs that photo. */
module PhotoRequests {
  import opened Common
  import opened Schema

  /** The waiting period, in calendar months. */
  const MONTHS_TO_WAIT: int := 3

  const STUDENT_NOT_FOUND: string := "Estudiante no encontrado"
  const PENDING_EXISTS: string :=
    "Ya tienes una solicitud de cambio de foto pendiente. "
    + "Espera a que sea revisada antes de crear una nueva."
  const ADMIN_NOT_FOUND: string := "Administrador no encontrado"
  const REQUEST_NOT_FOUND: string := "Solicitud no encontrada"
  const RESPONSE_FAILED: string := "Error al procesar la respuesta"

  /** The answer of `canRequestPhotoUpdate`; the last two fields are null
      (`None`) when the student may ask now. */
  datatype Eligibility = Eligibility(
    canRequest: bool,
    lastUpdateDate: Time,
    nextAvailableDate: Option<Time>,
    daysRemaining: Option<int>)

  datatype CreatePhotoRequestDto = CreatePhotoRequestDto(studentId: StudentId, newPhotoUrl: string)

  /** An administrator's answer. `status` is the text sent by the client:
      only the exact text "APROBADO" approves. */
  datatype RespondDto = RespondDto(requestId: RequestId, adminId: AdminId, status: string)

  datatype AdminSummary = AdminSummary(id: AdminId, name: string, role: AdminRole, email: string)

  datatype AdminHistory = AdminHistory(
    admin: AdminSummary,
    total: nat,
    approved: nat,
    rejected: nat,
    requests: map<RequestId, PhotoRequest>)

  /** `Math.ceil(x / day)` for a positive number of milliseconds `x`. */
  function DaysCeil(x: int): (d: int)
    requires x > 0
    ensures d >= 1
    ensures (d - 1) * MS_PER_DAY < x <= d * MS_PER_DAY
  {
    (x + MS_PER_DAY - 1) / MS_PER_DAY
  }

  /** `canRequestPhotoUpdate`: the reference date is the last photo change,
      or the creation of the account when there was none; the next request
      is possible `MONTHS_TO_WAIT` calendar months later, computed by
      `addMonths`. */
  function CanRequestPhotoUpdate(students: map<StudentId, Student>, studentId: StudentId, now: Time,
                                 addMonths: (Time, int) -> Time): (r: Result<Eligibility>)
    ensures r.Err? <==> studentId !in students
    ensures r.Err? ==> r.error == NotFound(STUDENT_NOT_FOUND)
    ensures r.Ok? ==>
              var last := students[studentId].updatedAt.GetOr(students[studentId].createdAt);
              var next := addMonths(last, MONTHS_TO_WAIT);
              r.value.lastUpdateDate == last
              && (r.value.canRequest <==> now >= next)
              && (r.value.canRequest ==> r.value.nextAvailableDate.None? && r.value.daysRemaining.None?)
              && (!r.value.canRequest ==>
                    r.value.nextAvailableDate == Some(next)
                    && r.value.daysRemaining.Some? && r.value.daysRemaining.value >= 1
                    && (r.value.daysRemaining.value - 1) * MS_PER_DAY < next - now
                    && next - now <= r.value.daysRemaining.value * MS_PER_DAY)
  {
    if studentId !in students then Err(NotFound(STUDENT_NOT_FOUND))
    else
      var s := students[studentId];
      var last := s.updatedAt.GetOr(s.createdAt);
      var next := addMonths(last, MONTHS_TO_WAIT);
      if now >= next then Ok(Eligibility(true, last, None, None))
      else Ok(Eligibility(false, last, Some(next), Some(DaysCeil(next - now))))
  }

  /** The student has a pending request. */
  predicate HasPending(requests: map<RequestId, PhotoRequest>, studentId: StudentId) {
    exists rid :: rid in requests && IsPendingOf(requests[rid], studentId)
  }

  /** Why `create` refuses a request, in the code's order; `None` when it is
      accepted. */
  function CreateRejection(students: map<StudentId, Student>, requests: map<RequestId, PhotoRequest>,
                           studentId: StudentId, now: Time, addMonths: (Time, int) -> Time): (e: Option<HttpError>)
    ensures studentId !in students ==> e == Some(NotFound(STUDENT_NOT_FOUND))
    ensures studentId in students && !CanRequestPhotoUpdate(students, studentId, now, addMonths).value.canRequest ==>
              e.Some? && e.value.WaitBeforeRequest?
              && Some(e.value.nextAvailableDate)
                 == CanRequestPhotoUpdate(students, studentId, now, addMonths).value.nextAvailableDate
              && Some(e.value.daysRemaining)
                 == CanRequestPhotoUpdate(students, studentId, now, addMonths).value.daysRemaining
    ensures e.None? <==>
              studentId in students
              && CanRequestPhotoUpdate(students, studentId, now, addMonths).value.canRequest
              && !HasPending(requests, studentId)
    ensures e == Some(Conflict(PENDING_EXISTS)) <==>
              studentId in students
              && CanRequestPhotoUpdate(students, studentId, now, addMonths).value.canRequest
              && HasPending(requests, studentId)
  {
    if studentId !in students then Some(NotFound(STUDENT_NOT_FOUND))
    else
      var eligibility := CanRequestPhotoUpdate(students, studentId, now, addMonths).value;
      if !eligibility.canRequest then
        Some(WaitBeforeRequest(eligibility.daysRemaining.value, eligibility.nextAvailableDate.value))
      else if HasPending(requests, studentId) then Some(Conflict(PENDING_EXISTS))
      else None
  }

  /** The row `create` inserts. */
  function NewRequest(dto: CreatePhotoRequestDto, now: Time): PhotoRequest {
    PhotoRequest(dto.studentId, dto.newPhotoUrl, PhotoRequestStatus.PENDIENTE, None, now, None)
  }

  /** `toLowerCase` of an answered status, as the refusal message shows it. */
  function StatusText(status: PhotoRequestStatus): string {
    match status
    case PENDIENTE => "pendiente"
    case APROBADO => "aprobado"
    case RECHAZADO => "rechazado"
  }

  function AlreadyAnswered(status: PhotoRequestStatus): string {
    "Esta solicitud ya fue " + StatusText(status) + " anteriormente"
  }

  /** Why `respondToRequest` refuses an answer, in the code's order; `None`
      when it is accepted. */
  function RespondRejection(admins: map<AdminId, AdminUser>, requests: map<RequestId, PhotoRequest>,
                            dto: RespondDto): (e: Option<HttpError>)
    ensures e.None? <==>
              dto.adminId in admins && dto.requestId in requests
              && requests[dto.requestId].status == PhotoRequestStatus.PENDIENTE
    ensures dto.adminId !in admins ==> e == Some(NotFound(ADMIN_NOT_FOUND))
    ensures dto.adminId in admins && dto.requestId !in requests ==> e == Some(NotFound(REQUEST_NOT_FOUND))
    ensures dto.adminId in admins && dto.requestId in requests
            && requests[dto.requestId].status != PhotoRequestStatus.PENDIENTE ==>
              e == Some(BadRequest(AlreadyAnswered(requests[dto.requestId].status)))
  {
    if dto.adminId !in admins then Some(NotFound(ADMIN_NOT_FOUND))
    else if dto.requestId !in requests then Some(NotFound(REQUEST_NOT_FOUND))
    else if requests[dto.requestId].status != PhotoRequestStatus.PENDIENTE then
      Some(BadRequest(AlreadyAnswered(requests[dto.requestId].status)))
    else None
  }

  /** The status an answer sets. */
  function ResponseStatus(status: string): (s: PhotoRequestStatus)
    ensures s != PhotoRequestStatus.PENDIENTE
    ensures s == PhotoRequestStatus.APROBADO <==> status == "APROBADO"
  {
    if status == "APROBADO" then PhotoRequestStatus.APROBADO else PhotoRequestStatus.RECHAZADO
  }

  /** The request after the answer: its status, who answered and when. */
  function Answered(r: PhotoRequest, dto: RespondDto, now: Time): (a: PhotoRequest)
    ensures a.status != PhotoRequestStatus.PENDIENTE
    ensures a.status == ResponseStatus(dto.status)
    ensures a.status == PhotoRequestStatus.APROBADO <==> dto.status == "APROBADO"
    ensures a.adminId == Some(dto.adminId) && a.responseDate == Some(now)
    ensures a.studentId == r.studentId && a.newPhotoUrl == r.newPhotoUrl
    ensures a.applicationDate == r.applicationDate
  {
    r.(status := ResponseStatus(dto.status), adminId := Some(dto.adminId), responseDate := Some(now))
  }

  /** Whether the answer installs the requested photo: an approval of a
      request with a non-empty URL. */
  predicate InstallsPhoto(r: PhotoRequest, dto: RespondDto) {
    dto.status == "APROBADO" && r.newPhotoUrl != ""
  }

  /** The student row after an approved request: the new photo key and the
      time of the change. */
  function WithRequestedPhoto(s: Student, url: string, now: Time): (t: Student)
    ensures t.cardPhotoKey == Some(url) && t.updatedAt == Some(now)
    ensures t.(cardPhotoKey := s.cardPhotoKey, updatedAt := s.updatedAt) == s
  {
    s.(cardPhotoKey := Some(url), updatedAt := Some(now))
  }

  /** The requests an administrator has answered. */
  function AnsweredBy(requests: map<RequestId, PhotoRequest>, adminId: AdminId): (m: map<RequestId, PhotoRequest>)
    ensures m.Keys <= requests.Keys
    ensures forall rid :: rid in m <==>
                            rid in requests && requests[rid].adminId == Some(adminId)
                            && requests[rid].status != PhotoRequestStatus.PENDIENTE
    ensures forall rid :: rid in m ==> m[rid] == requests[rid]
  {
    map rid | rid in requests && requests[rid].adminId == Some(adminId)
                && requests[rid].status != PhotoRequestStatus.PENDIENTE :: requests[rid]
  }

  function WithStatus(requests: map<RequestId, PhotoRequest>, status: PhotoRequestStatus): set<RequestId> {
    set rid | rid in requests && requests[rid].status == status
  }

  /** `findByAdmin`: the administrator's answered requests with their counts. */
  function FindByAdmin(admins: map<AdminId, AdminUser>, requests: map<RequestId, PhotoRequest>,
                       adminId: AdminId): (r: Result<AdminHistory>)
    ensures r.Err? <==> adminId !in admins
    ensures r.Err? ==> r.error == NotFound(ADMIN_NOT_FOUND)
    ensures r.Ok? ==>
              r.value.admin.id == adminId
              && r.value.requests == AnsweredBy(requests, adminId)
              && r.value.total == |r.value.requests|
              && r.value.approved == |WithStatus(r.value.requests, PhotoRequestStatus.APROBADO)|
              && r.value.rejected == |WithStatus(r.value.requests, PhotoRequestStatus.RECHAZADO)|
  {
    if adminId !in admins then Err(NotFound(ADMIN_NOT_FOUND))
    else
      var a := admins[adminId];
      var answered := AnsweredBy(requests, adminId);
      Ok(AdminHistory(AdminSummary(adminId, a.name + " " + a.lastName, a.role, a.email),
                      |answered|,
                      |WithStatus(answered, PhotoRequestStatus.APROBADO)|,
                      |WithStatus(answered, PhotoRequestStatus.RECHAZADO)|,
                      answered))
  }

  /** Every answered request is approved or rejected, so the two counts add
      up to the total. */
  lemma ApprovedPlusRejectedIsTotal(admins: map<AdminId, AdminUser>, requests: map<RequestId, PhotoRequest>,
                                    adminId: AdminId)
    requires adminId in admins
    ensures var h := FindByAdmin(admins, requests, adminId).value;
            h.approved + h.rejected == h.total
  {
    var m := AnsweredBy(requests, adminId);
    var a, b := WithStatus(m, PhotoRequestStatus.APROBADO), WithStatus(m, PhotoRequestStatus.RECHAZADO);
    assert m.Keys == a + b;
    assert a * b == {};
  }

  /** An answered request refuses every further answer: a request leaves
      PENDIENTE at most once. */
  lemma AnswerIsFinal(admins: map<AdminId, AdminUser>, requests: map<RequestId, PhotoRequest>,
                      dto: RespondDto, now: Time, next: RespondDto)
    requires RespondRejection(admins, requests, dto).None?
    requires next.requestId == dto.requestId && next.adminId in admins
    ensures var answered := Answered(requests[dto.requestId], dto, now);
            RespondRejection(admins, requests[dto.requestId := answered], next)
            == Some(BadRequest(AlreadyAnswered(ResponseStatus(dto.status))))
  {
  }

  /** A photo change restarts the waiting period: with `addMonths` moving
      forward in time, a student whose photo was just changed cannot ask
      for another one at that instant, whichever way it was changed. */
  lemma PhotoChangeRestartsWaiting(students: map<StudentId, Student>, studentId: StudentId, url: string,
                                   now: Time, addMonths: (Time, int) -> Time)
    requires studentId in students
    requires addMonths(now, MONTHS_TO_WAIT) > now
    ensures var changed := students[studentId := WithRequestedPhoto(students[studentId], url, now)];
            var e := CanRequestPhotoUpdate(changed, studentId, now, addMonths);
            e.Ok? && !e.value.canRequest
            && e.value.nextAvailableDate == Some(addMonths(now, MONTHS_TO_WAIT))
  {
  }

  /** Once the waiting period is over it stays over. */
  lemma EligibilityPersists(students: map<StudentId, Student>, studentId: StudentId, now: Time, later: Time,
                            addMonths: (Time, int) -> Time)
    requires studentId in students && now <= later
    requires CanRequestPhotoUpdate(students, studentId, now, addMonths).value.canRequest
    ensures CanRequestPhotoUpdate(students, studentId, later, addMonths).value.canRequest
  {
  }

  /** The photo-request service over the database client `db`; `addMonths`
      is the calendar arithmetic of `Date.setMonth`. */
  class PhotoRequestService {
    const db: Database
    const addMonths: (Time, int) -> Time

    constructor (db: Database, addMonths: (Time, int) -> Time)
      ensures this.db == db && this.addMonths == addMonths
    {
      this.db := db;
      this.addMonths := addMonths;
    }

    /** `create`: refuses as `CreateRejection` says and inserts nothing;
        otherwise inserts one PENDIENTE request under the fresh id `newId`,
        which is then the student's only pending request. */
    method Create(dto: CreatePhotoRequestDto, newId: RequestId, now: Time) returns (r: Result<PhotoRequest>)
      requires newId !in db.photoRequests
      modifies db`photoRequests
      ensures CreateRejection(db.students, old(db.photoRequests), dto.studentId, now, addMonths).Some? ==>
        r == Err(CreateRejection(db.students, old(db.photoRequests), dto.studentId, now, addMonths).value)
        && db.photoRequests == old(db.photoRequests)
      ensures CreateRejection(db.students, old(db.photoRequests), dto.studentId, now, addMonths).None? ==>
        r == Ok(NewRequest(dto, now))
        && db.photoRequests == old(db.photoRequests)[newId := NewRequest(dto, now)]
      ensures r.Ok? ==>
        forall rid :: rid in db.photoRequests && IsPendingOf(db.photoRequests[rid], dto.studentId) <==> rid == newId
      ensures old(db.Valid()) ==> db.Valid()
    {
      var eligibility := CanRequestPhotoUpdate(db.students, dto.studentId, now, addMonths);
      if eligibility.Err? {
        return Err(eligibility.error);
      }
      if !eligibility.value.canRequest {
        return Err(WaitBeforeRequest(eligibility.value.daysRemaining.value, eligibility.value.nextAvailableDate.value));
      }
      if HasPending(db.photoRequests, dto.studentId) {
        return Err(Conflict(PENDING_EXISTS));
      }
      db.photoRequests := db.photoRequests[newId := NewRequest(dto, now)];
      r := Ok(NewRequest(dto, now));
    }

    /** `respondToRequest`: refuses as `RespondRejection` says and changes
        nothing; otherwise, in one transaction, records the answer and, when
        it installs a photo, writes it to the student. The transaction rolls
        back when that student row is missing. */
    method RespondToRequest(dto: RespondDto, now: Time) returns (r: Result<PhotoRequest>)
      modifies db`photoRequests, db`students
      ensures RespondRejection(db.admins, old(db.photoRequests), dto).Some? ==>
        r == Err(RespondRejection(db.admins, old(db.photoRequests), dto).value)
        && db.photoRequests == old(db.photoRequests) && db.students == old(db.students)
      ensures RespondRejection(db.admins, old(db.photoRequests), dto).None? ==>
        var req := old(db.photoRequests)[dto.requestId];
        if InstallsPhoto(req, dto) && req.studentId !in old(db.students) then
          r == Err(InternalServerError(RESPONSE_FAILED))
          && db.photoRequests == old(db.photoRequests) && db.students == old(db.students)
        else
          r == Ok(Answered(req, dto, now))
          && db.photoRequests == old(db.photoRequests)[dto.requestId := Answered(req, dto, now)]
          && db.students == (if InstallsPhoto(req, dto)
                             then old(db.students)[req.studentId :=
                                    WithRequestedPhoto(old(db.students)[req.studentId], req.newPhotoUrl, now)]
                             else old(db.students))
      ensures old(db.Valid()) ==> db.Valid()
    {
      var rejection := RespondRejection(db.admins, db.photoRequests, dto);
      if rejection.Some? {
        return Err(rejection.value);
      }
      var req := db.photoRequests[dto.requestId];
      if InstallsPhoto(req, dto) && req.studentId !in db.students {
        return Err(InternalServerError(RESPONSE_FAILED));
      }
      var answered := Answered(req, dto, now);
      db.photoRequests := db.photoRequests[dto.requestId := answered];
      if InstallsPhoto(req, dto) {
        db.students := db.students[req.studentId := WithRequestedPhoto(db.students[req.studentId], req.newPhotoUrl, now)];
      }
      r := Ok(answered);
    }
  }
}

=== FILE: qr_service.dfy ===
/** The QR credential of the digital student card. The QR code carries a
    fixed prefix followed by a signed token over the student code; validating
    a token verifies it and looks the student up, and every failure is
    reported with one and the same message. The service keeps no state: the
    signer, the verifier and the QR renderer are functions it is given. */
module Qr {
  import opened Common
  import opened Schema
  import Students

  const PREFIX: string := "UFPSCARNET:"

  /** Lifetime of a QR code, in seconds, as announced to the client. */
  const EXPIRES_IN: int := 3600

  const INVALID_QR: string := "QR inválido o expirado"

  /** The claims of a QR token; a token verified by the verifier may lack
      the student code. */
  datatype QrClaims = QrClaims(studentCode: Option<string>)

  datatype QrResponse = QrResponse(qr: string, expiresIn: int, jwt: string)

  datatype QrValidation = QrValidation(valid: bool, student: Student)

  /** The student code a token carries when it verifies and names a
      non-empty code. */
  function DecodedCode(verify: string -> Option<QrClaims>, token: string): (c: Option<string>)
    ensures c.Some? <==>
              verify(token).Some? && verify(token).value.studentCode.Some?
              && verify(token).value.studentCode.value != []
    ensures c.Some? ==> verify(token) == Some(QrClaims(c))
  {
    var decoded := verify(token);
    if decoded.Some? && decoded.value.studentCode.Some? && decoded.value.studentCode.value != [] then
      decoded.value.studentCode
    else None
  }

  /** The tokens `validateQrToken` accepts: a verified token whose code
      belongs to some student. */
  predicate Accepts(students: map<StudentId, Student>, verify: string -> Option<QrClaims>, token: string) {
    DecodedCode(verify, token).Some? && Students.CodeRegistered(students, DecodedCode(verify, token).value)
  }

  /** With a verifier that recovers what the signer signed, the token of a
      freshly created QR is accepted exactly when the code is non-empty and
      belongs to a student: creating a QR checks nothing, validating it
      checks the student. */
  lemma CreatedTokenRoundTrip(students: map<StudentId, Student>, qr: QrService, code: string)
    requires qr.verify(qr.sign(QrClaims(Some(code)))) == Some(QrClaims(Some(code)))
    ensures Accepts(students, qr.verify, qr.Create(code).jwt)
            <==> code != [] && Students.CodeRegistered(students, code)
  {
  }

  /** Validation verifies its input as it is, prefix included. The text a
      scanner reads from a freshly created QR is the prefix followed by the
      token. Suppose the verifier accepts only tokens the signer produced, and
      no signed token starts with the prefix. Then that text is never
      accepted: only the bare token, which `create` also returns, validates. */
  lemma ScannedPayloadIsRejected(students: map<StudentId, Student>, qr: QrService, code: string)
    requires forall x :: qr.verify(x).Some? ==> exists c :: qr.sign(c) == x
    requires forall c :: !(PREFIX <= qr.sign(c))
    ensures !Accepts(students, qr.verify, PREFIX + qr.Create(code).jwt)
  {
  }

  /** The QR service; `sign` and `verify` stand for the JWT service, `render`
      for the PNG data-URL renderer, and `students` for the student look-up. */
  class QrService {
    const students: Students.StudentService
    const sign: QrClaims -> string
    const verify: string -> Option<QrClaims>
    const render: string -> string

    constructor (students: Students.StudentService, sign: QrClaims -> string,
                 verify: string -> Option<QrClaims>, render: string -> string)
      ensures this.students == students && this.sign == sign
      ensures this.verify == verify && this.render == render
    {
      this.students := students;
      this.sign := sign;
      this.verify := verify;
      this.render := render;
    }

    /** `create`: signs the student code alone and renders the prefixed
        token; the token is also returned as it is. */
    function Create(code: string): (r: QrResponse)
      ensures r.jwt == sign(QrClaims(Some(code)))
      ensures r.qr == render(PREFIX + r.jwt)
      ensures r.expiresIn == EXPIRES_IN
    {
      var token := sign(QrClaims(Some(code)));
      QrResponse(render(PREFIX + token), EXPIRES_IN, token)
    }

    /** `validateQrToken`: a student whose code the verified token names, or
        the one Unauthorized answer for every failure. It changes nothing. */
    method ValidateQrToken(token: string) returns (r: Result<QrValidation>)
      ensures r.Ok? <==> Accepts(students.db.students, verify, token)
      ensures r.Err? ==> r.error == Unauthorized(INVALID_QR)
      ensures r.Ok? ==>
                r.value.valid
                && r.value.student in students.db.students.Values
                && Some(r.value.student.studentCode) == DecodedCode(verify, token)
    {
      var code := DecodedCode(verify, token);
      if code.None? {
        return Err(Unauthorized(INVALID_QR));
      }
      var found := students.GetStudentByCode(code.value);
      if found.Err? {
        return Err(Unauthorized(INVALID_QR));
      }
      r := Ok(QrValidation(true, found.value));
    }
  }
}

=== FILE: roles_guard.dfy ===
/** The route guard that admits an administrator only when the route's
    required roles include the administrator's role. The roles metadata and
    the authenticated user are inputs; the guard reads nothing else. */
module RolesGuard {
  import opened Common
  import opened Schema

  const NO_PERMISSION: string := "No tienes permisos para realizar esta acción"

  /** `canActivate`: `requiredRoles` is the `roles` metadata of the handler,
      absent when the route declares none. */
  function CanActivate(requiredRoles: Option<seq<AdminRole>>, userRole: AdminRole): (r: Result<bool>)
    ensures r == Ok(true) <==> requiredRoles.None? || userRole in requiredRoles.value
    ensures r != Ok(true) ==> r == Err(Forbidden(NO_PERMISSION))
  {
    if requiredRoles.None? then Ok(true)
    else if userRole !in requiredRoles.value then Err(Forbidden(NO_PERMISSION))
    else Ok(true)
  }

  /** The guard never answers `false`: it admits, or it throws Forbidden. */
  lemma NeverFalse(requiredRoles: Option<seq<AdminRole>>, userRole: AdminRole)
    ensures CanActivate(requiredRoles, userRole) != Ok(false)
    ensures CanActivate(requiredRoles, userRole).Err? ==> CanActivate(requiredRoles, userRole).error.Code() == 403
  {
  }

  /** An empty list of roles is metadata that is present, so it admits
      nobody, while missing metadata admits everybody. */
  lemma EmptyRolesAdmitNobody(userRole: AdminRole)
    ensures CanActivate(Some([]), userRole) == Err(Forbidden(NO_PERMISSION))
    ensures CanActivate(None, userRole) == Ok(true)
  {
  }

  /** A route restricted to SuperAdmin admits exactly the SuperAdmins. */
  lemma SuperAdminOnlyRoute(userRole: AdminRole)
    ensures CanActivate(Some([SuperAdmin]), userRole).Ok? <==> userRole == SuperAdmin
  {
  }
}

=== FILE: schema.dfy ===
/** The tables of the card backend's database and the records they hold. The
    database client is one object whose tables the services change in place;
    each table is a field of that object, and a row's primary key is its key
    in the field's map. Identifiers are opaque strings chosen by the database
    (UUIDs), passed to the operations that insert rows. */
module Schema {
  import opened Common

  type AdminId = string
  type StudentId = string
  type RequestId = string

  /** Roles of an administrator. The code names only `SuperAdmin`; every other
      role is represented by `Admin`. */
  datatype AdminRole = SuperAdmin | Admin

  datatype AdminStatus = ACTIVO | INACTIVO

  /** A row of `adminUser`; `password` holds the bcrypt hash. */
  datatype AdminUser = AdminUser(
    name: string,
    lastName: string,
    email: string,
    password: string,
    role: AdminRole,
    status: AdminStatus,
    createdAt: Time)

  datatype StudentType = PREGRADO | POSGRADO

  datatype StudentStatus = MATRICULADO | NO_ACTIVO

  /** A row of `student`. `updatedAt` is empty until the first photo change. */
  datatype Student = Student(
    firebaseId: string,
    studentCode: string,
    cardPhotoUrl: string,
    cardPhotoKey: Option<string>,
    email: string,
    name: string,
    lastName: string,
    studentType: StudentType,
    career: string,
    status: StudentStatus,
    createdAt: Time,
    updatedAt: Option<Time>,
    lastSyncAt: Time)

  datatype BiometricStatus = PENDIENTE | APROBADO | RECHAZADO

  /** A row of `biometricProfile`, keyed by the student it belongs to. */
  datatype BiometricProfile = BiometricProfile(status: BiometricStatus)

  datatype ValidationResult = APROBADO | RECHAZADO

  /** A row of `biometricValidationLog`; the service writes the student's id
      into `biometricId`. */
  datatype ValidationLog = ValidationLog(
    biometricId: StudentId,
    similarity: real,
    result: ValidationResult,
    createdAt: Time)

  datatype PhotoRequestStatus = PENDIENTE | APROBADO | RECHAZADO

  /** A row of `photoRequest`. `adminId` and `responseDate` are set when an
      administrator answers it. */
  datatype PhotoRequest = PhotoRequest(
    studentId: StudentId,
    newPhotoUrl: string,
    status: PhotoRequestStatus,
    adminId: Option<AdminId>,
    applicationDate: Time,
    responseDate: Option<Time>)

  /** A pending photo-change request of the given student. */
  predicate IsPendingOf(r: PhotoRequest, studentId: StudentId) {
    r.studentId == studentId && r.status == PhotoRequestStatus.PENDIENTE
  }

  /** A Firebase account is linked to at most one student. */
  predicate FirebaseIdsUnique(students: map<StudentId, Student>) {
    forall s1, s2 ::
      s1 in students && s2 in students && students[s1].firebaseId == students[s2].firebaseId
      ==> s1 == s2
  }

  /** A student has at most one pending photo-change request. */
  predicate AtMostOnePending(requests: map<RequestId, PhotoRequest>) {
    forall r1, r2 ::
      r1 in requests && r2 in requests
      && requests[r2].status == PhotoRequestStatus.PENDIENTE
      && IsPendingOf(requests[r1], requests[r2].studentId)
      ==> r1 == r2
  }

  /** Every request belongs to an existing student. */
  predicate RequestsOwned(requests: map<RequestId, PhotoRequest>, students: map<StudentId, Student>) {
    forall rid :: rid in requests ==> requests[rid].studentId in students
  }

  /** The integrity the services keep on the student side of the schema:
      every profile and every request belongs to an existing student, a
      Firebase account is linked to at most one student, and a student has
      at most one pending photo-change request. */
  predicate Integrity(students: map<StudentId, Student>, profiles: map<StudentId, BiometricProfile>,
                      requests: map<RequestId, PhotoRequest>) {
    profiles.Keys <= students.Keys
    && RequestsOwned(requests, students)
    && FirebaseIdsUnique(students)
    && AtMostOnePending(requests)
  }

  /** Registering a student under a fresh id, with a profile under the same
      id, keeps the integrity of the tables when no student is linked to the
      newcomer's Firebase account yet. */
  lemma RegistrationKeepsIntegrity(students: map<StudentId, Student>, profiles: map<StudentId, BiometricProfile>,
                                   requests: map<RequestId, PhotoRequest>, newId: StudentId, s: Student,
                                   p: BiometricProfile)
    requires newId !in students
    requires forall id :: id in students ==> students[id].firebaseId != s.firebaseId
    ensures Integrity(students, profiles, requests) ==> Integrity(students[newId := s], profiles[newId := p], requests)
  {
  }

  /** The database client with its five tables. */
  class Database {
    var admins: map<AdminId, AdminUser>
    var students: map<StudentId, Student>
    var profiles: map<StudentId, BiometricProfile>
    var validations: seq<ValidationLog>
    var photoRequests: map<RequestId, PhotoRequest>

    /** The tables keep their `Integrity`. */
    predicate Valid()
      reads this
    {
      Integrity(students, profiles, photoRequests)
    }

    constructor ()
      ensures admins == map[] && students == map[] && profiles == map[]
      ensures validations == [] && photoRequests == map[]
      ensures Valid()
    {
      admins := map[];
      students := map[];
      profiles := map[];
      validations := [];
      photoRequests := map[];
    }
  }
}

=== FILE: student_service.dfy ===
/** The students service: look-ups by e-mail and by student code, and the
    biometric workflow. A validation attempt (the similarity score between the
    selfie and the card photo, computed elsewhere) is logged, decides the
    biometric profile's status, and on approval refreshes the card photo; an
    approved profile is locked until an administrator resets it. */
module Students {
  import opened Common
  import opened Schema

  const STUDENT_NOT_FOUND: string := "Estudiante no encontrado"
  const NO_PROFILE_CREATED: string := "El estudiante no tiene un perfil biométrico creado"
  const PROFILE_LOCKED: string := "El perfil biométrico ya está aprobado y no puede ser modificado"
  const NO_PROFILE: string := "El estudiante no tiene un perfil biométrico"

  /** The minimum similarity, in percent, of an approved validation. */
  const SIMILARITY_THRESHOLD: real := 90.0

  function StudentIdNotFound(studentId: StudentId): string {
    "Estudiante con ID " + studentId + " no encontrado"
  }

  /** The body of a validation attempt. `cardPhotoUrl` is absent when the
      request carries no such field, and then the stored photo is kept. */
  datatype UpdateBiometricDto = UpdateBiometricDto(
    studentId: StudentId,
    cardPhotoUrl: Option<string>,
    similarity: real)

  datatype ValidationSummary = ValidationSummary(
    similarity: real,
    result: ValidationResult,
    threshold: real)

  datatype BiometricUpdateResponse = BiometricUpdateResponse(
    success: bool,
    student: Student,
    validation: ValidationSummary)

  /** The last validation as `getBiometricStatus` shows it. */
  datatype ValidationView = ValidationView(similarity: real, result: ValidationResult, date: Time)

  datatype BiometricStatusView = BiometricStatusView(
    studentId: StudentId,
    name: string,
    email: string,
    photoUrl: string,
    biometricStatus: BiometricStatus,
    totalAttempts: nat,
    lastValidation: Option<ValidationView>,
    canRetry: bool,
    history: seq<ValidationLog>)

  /** The verdict on a similarity score. */
  function Verdict(similarity: real): (v: ValidationResult)
    ensures v == ValidationResult.APROBADO <==> similarity >= SIMILARITY_THRESHOLD
  {
    if similarity >= SIMILARITY_THRESHOLD then ValidationResult.APROBADO else ValidationResult.RECHAZADO
  }

  /** The profile status a verdict leaves behind. */
  function ProfileStatusFor(v: ValidationResult): (s: BiometricStatus)
    ensures s != BiometricStatus.PENDIENTE
    ensures s == BiometricStatus.APROBADO <==> v == ValidationResult.APROBADO
  {
    match v
    case APROBADO => BiometricStatus.APROBADO
    case RECHAZADO => BiometricStatus.RECHAZADO
  }

  /** The log row of an attempt. */
  function LogOf(dto: UpdateBiometricDto, now: Time): ValidationLog {
    ValidationLog(dto.studentId, dto.similarity, Verdict(dto.similarity), now)
  }

  /** The student row after an approved attempt: the new photo when one was
      sent, and the time of the change. */
  function WithApprovedPhoto(s: Student, cardPhotoUrl: Option<string>, now: Time): (t: Student)
    ensures t.updatedAt == Some(now)
    ensures t.cardPhotoUrl == cardPhotoUrl.GetOr(s.cardPhotoUrl)
    ensures t.(cardPhotoUrl := s.cardPhotoUrl, updatedAt := s.updatedAt) == s
  {
    s.(cardPhotoUrl := cardPhotoUrl.GetOr(s.cardPhotoUrl), updatedAt := Some(now))
  }

  /** Why `updateBiometricProfile` refuses an attempt, checked in the code's
      order; `None` when the attempt is accepted. */
  function BiometricRejection(students: map<StudentId, Student>, profiles: map<StudentId, BiometricProfile>,
                              studentId: StudentId): (e: Option<HttpError>)
    ensures e.None? <==>
              studentId in students && studentId in profiles
              && profiles[studentId].status != BiometricStatus.APROBADO
    ensures studentId !in students ==> e == Some(NotFound(StudentIdNotFound(studentId)))
    ensures studentId in students && studentId !in profiles ==> e == Some(BadRequest(NO_PROFILE_CREATED))
  {
    if studentId !in students then Some(NotFound(StudentIdNotFound(studentId)))
    else if studentId !in profiles then Some(BadRequest(NO_PROFILE_CREATED))
    else if profiles[studentId].status == BiometricStatus.APROBADO then Some(BadRequest(PROFILE_LOCKED))
    else None
  }

  /** The validations of one student, newest first: the log is appended to in
      time order, so reading it backwards is the descending order on the
      creation time. */
  function NewestFirst(validations: seq<ValidationLog>, studentId: StudentId): (h: seq<ValidationLog>)
    ensures |h| <= |validations|
    ensures forall v :: v in h <==> v in validations && v.biometricId == studentId
    decreases |validations|
  {
    if validations == [] then []
    else
      var last := validations[|validations| - 1];
      (if last.biometricId == studentId then [last] else [])
      + NewestFirst(validations[..|validations| - 1], studentId)
  }

  /** `getBiometricStatus`: the profile with its validation history, NotFound
      when the student or the profile is missing. */
  function GetBiometricStatus(students: map<StudentId, Student>, profiles: map<StudentId, BiometricProfile>,
                              validations: seq<ValidationLog>, studentId: StudentId): (r: Result<BiometricStatusView>)
    ensures r.Ok? <==> studentId in students && studentId in profiles
    ensures studentId !in students ==> r == Err(NotFound(StudentIdNotFound(studentId)))
    ensures studentId in students && studentId !in profiles ==> r == Err(NotFound(NO_PROFILE))
    ensures r.Ok? ==>
              r.value.studentId == studentId
              && r.value.biometricStatus == profiles[studentId].status
              && r.value.totalAttempts == |r.value.history|
              && (r.value.canRetry <==> profiles[studentId].status != BiometricStatus.APROBADO)
              && (r.value.lastValidation.None? <==> r.value.history == [])
              && (forall v :: v in r.value.history <==> v in validations && v.biometricId == studentId)
  {
    if studentId !in students then Err(NotFound(StudentIdNotFound(studentId)))
    else if studentId !in profiles then Err(NotFound(NO_PROFILE))
    else
      var s := students[studentId];
      var history := NewestFirst(validations, studentId);
      var last := if history == [] then None
                  else Some(ValidationView(history[0].similarity, history[0].result, history[0].createdAt));
      Ok(BiometricStatusView(studentId, s.name + " " + s.lastName, s.email, s.cardPhotoUrl,
                             profiles[studentId].status, |history|, last,
                             profiles[studentId].status != BiometricStatus.APROBADO, history))
  }

  /** Appending an attempt of the student puts it in front of the history;
      appending another student's attempt leaves the history alone. */
  lemma {:induction false} NewestFirstAppend(validations: seq<ValidationLog>, log: ValidationLog, studentId: StudentId)
    ensures NewestFirst(validations + [log], studentId)
            == (if log.biometricId == studentId then [log] else []) + NewestFirst(validations, studentId)
  {
    assert (validations + [log])[..|validations|] == validations;
  }

  /** The log is in time order. */
  predicate Chronological(validations: seq<ValidationLog>) {
    forall i, j :: 0 <= i < j < |validations| ==> validations[i].createdAt <= validations[j].createdAt
  }

  /** Each validation is at least as recent as the ones after it. */
  predicate NewestFirstOrder(h: seq<ValidationLog>) {
    forall i, j :: 0 <= i < j < |h| ==> h[i].createdAt >= h[j].createdAt
  }

  lemma PrependKeepsOrder(x: ValidationLog, rest: seq<ValidationLog>)
    requires NewestFirstOrder(rest)
    requires forall v :: v in rest ==> v.createdAt <= x.createdAt
    ensures NewestFirstOrder([x] + rest)
  {
    var h := [x] + rest;
    forall i, j | 0 <= i < j < |h| ensures h[i].createdAt >= h[j].createdAt {
      assert h[j] == rest[j - 1];
      if i > 0 {
        assert h[i] == rest[i - 1];
      }
    }
  }

  lemma LastIsNewest(validations: seq<ValidationLog>, studentId: StudentId)
    requires validations != [] && Chronological(validations)
    ensures var n := |validations| - 1;
            forall v :: v in NewestFirst(validations[..n], studentId) ==> v.createdAt <= validations[n].createdAt
  {
    var n := |validations| - 1;
    forall v | v in NewestFirst(validations[..n], studentId) ensures v.createdAt <= validations[n].createdAt {
      var k :| 0 <= k < n && validations[..n][k] == v;
      assert validations[k] == v;
    }
  }

  /** On a log in time order the history is in descending order of creation
      time, as the query's `orderBy: { created_at: 'desc' }` asks. */
  lemma {:induction false} NewestFirstIsDescending(validations: seq<ValidationLog>, studentId: StudentId)
    requires Chronological(validations)
    ensures NewestFirstOrder(NewestFirst(validations, studentId))
    decreases |validations|
  {
    if validations != [] {
      var n := |validations| - 1;
      assert Chronological(validations[..n]);
      NewestFirstIsDescending(validations[..n], studentId);
      if validations[n].biometricId == studentId {
        LastIsNewest(validations, studentId);
        PrependKeepsOrder(validations[n], NewestFirst(validations[..n], studentId));
      }
    }
  }

  /** An attempt logged at a time no earlier than every logged attempt keeps
      the log in time order; with a clock that does not run backwards, every
      log `updateBiometricProfile` builds is in time order. */
  lemma AppendKeepsChronological(validations: seq<ValidationLog>, log: ValidationLog)
    requires Chronological(validations)
    requires forall v :: v in validations ==> v.createdAt <= log.createdAt
    ensures Chronological(validations + [log])
  {
    var w := validations + [log];
    forall i, j | 0 <= i < j < |w| ensures w[i].createdAt <= w[j].createdAt {
      assert w[i] == validations[i] && validations[i] in validations;
      if j < |validations| {
        assert w[j] == validations[j];
      }
    }
  }

  /** The indices of the student's attempts in the log. */
  function AttemptIndices(validations: seq<ValidationLog>, studentId: StudentId): set<int> {
    set i | 0 <= i < |validations| && validations[i].biometricId == studentId
  }

  lemma AttemptIndicesOfPrefix(validations: seq<ValidationLog>, studentId: StudentId)
    requires validations != []
    ensures var n := |validations| - 1;
            AttemptIndices(validations, studentId)
            == AttemptIndices(validations[..n], studentId)
               + (if validations[n].biometricId == studentId then {n} else {})
  {
    var n := |validations| - 1;
    var a, b := AttemptIndices(validations, studentId), AttemptIndices(validations[..n], studentId);
    forall i | i in b ensures i in a {
      assert validations[..n][i] == validations[i];
    }
    forall i | i in a && i != n ensures i in b {
      assert validations[..n][i] == validations[i];
    }
  }

  /** The number of attempts shown is the number of log rows of the student. */
  lemma {:induction false} AttemptsAreCounted(validations: seq<ValidationLog>, studentId: StudentId)
    ensures |NewestFirst(validations, studentId)| == |AttemptIndices(validations, studentId)|
    decreases |validations|
  {
    if validations != [] {
      var n := |validations| - 1;
      AttemptsAreCounted(validations[..n], studentId);
      AttemptIndicesOfPrefix(validations, studentId);
      assert n !in AttemptIndices(validations[..n], studentId);
    }
  }

  /** What an accepted attempt does to the status page: one more attempt, the
      attempt itself as the last validation, the profile status of its
      verdict, and a retry possible exactly when it was rejected. */
  lemma AcceptedAttemptIsReported(students: map<StudentId, Student>, profiles: map<StudentId, BiometricProfile>,
                                  validations: seq<ValidationLog>, dto: UpdateBiometricDto, now: Time)
    requires BiometricRejection(students, profiles, dto.studentId).None?
    ensures var v := Verdict(dto.similarity);
            var students' := if v == ValidationResult.APROBADO
                             then students[dto.studentId := WithApprovedPhoto(students[dto.studentId], dto.cardPhotoUrl, now)]
                             else students;
            var profiles' := profiles[dto.studentId := BiometricProfile(ProfileStatusFor(v))];
            var before := GetBiometricStatus(students, profiles, validations, dto.studentId);
            var after := GetBiometricStatus(students', profiles', validations + [LogOf(dto, now)], dto.studentId);
            before.Ok? && after.Ok?
            && after.value.totalAttempts == before.value.totalAttempts + 1
            && after.value.history == [LogOf(dto, now)] + before.value.history
            && after.value.lastValidation == Some(ValidationView(dto.similarity, v, now))
            && after.value.biometricStatus == ProfileStatusFor(v)
            && (after.value.canRetry <==> v == ValidationResult.RECHAZADO)
  {
    NewestFirstAppend(validations, LogOf(dto, now), dto.studentId);
  }

  /** An approved profile refuses every further attempt, whatever its score. */
  lemma ApprovedProfileIsLocked(students: map<StudentId, Student>, profiles: map<StudentId, BiometricProfile>,
                                validations: seq<ValidationLog>, studentId: StudentId)
    requires studentId in students && studentId in profiles
    requires profiles[studentId].status == BiometricStatus.APROBADO
    ensures BiometricRejection(students, profiles, studentId) == Some(BadRequest(PROFILE_LOCKED))
    ensures GetBiometricStatus(students, profiles, validations, studentId).Ok?
    ensures !GetBiometricStatus(students, profiles, validations, studentId).value.canRetry
  {
  }

  /** After a reset the student may be validated again. */
  lemma ResetReopensValidation(students: map<StudentId, Student>, profiles: map<StudentId, BiometricProfile>,
                               studentId: StudentId)
    requires studentId in students && studentId in profiles
    ensures BiometricRejection(students, profiles[studentId := BiometricProfile(BiometricStatus.PENDIENTE)], studentId).None?
  {
  }

  /** Some student has the given e-mail. */
  predicate EmailRegistered(students: map<StudentId, Student>, email: string) {
    exists id :: id in students && students[id].email == email
  }

  /** Some student has the given student code. */
  predicate CodeRegistered(students: map<StudentId, Student>, code: string) {
    exists id :: id in students && students[id].studentCode == code
  }

  /** The students service over the database client `db`. */
  class StudentService {
    const db: Database

    constructor (db: Database)
      ensures this.db == db
    {
      this.db := db;
    }

    /** `getStudentByEmail`: a student with that e-mail (any of them when
        several share it), NotFound when there is none. */
    method GetStudentByEmail(email: string) returns (r: Result<Student>)
      ensures r.Err? <==> !EmailRegistered(db.students, email)
      ensures r.Err? ==> r.error == NotFound(STUDENT_NOT_FOUND)
      ensures r.Ok? ==> r.value.email == email && r.value in db.students.Values
    {
      if !EmailRegistered(db.students, email) {
        return Err(NotFound(STUDENT_NOT_FOUND));
      }
      var id :| id in db.students && db.students[id].email == email;
      r := Ok(db.students[id]);
    }

    /** `getStudentByCode`: the same look-up by student code. */
    method GetStudentByCode(code: string) returns (r: Result<Student>)
      ensures r.Err? <==> !CodeRegistered(db.students, code)
      ensures r.Err? ==> r.error == NotFound(STUDENT_NOT_FOUND)
      ensures r.Ok? ==> r.value.studentCode == code && r.value in db.students.Values
    {
      if !CodeRegistered(db.students, code) {
        return Err(NotFound(STUDENT_NOT_FOUND));
      }
      var id :| id in db.students && db.students[id].studentCode == code;
      r := Ok(db.students[id]);
    }

    /** `updateBiometricProfile`: refuses the attempt as `BiometricRejection`
        says and changes nothing; otherwise, in one transaction, logs the
        attempt, sets the profile status from the verdict and, on approval,
        refreshes the student's photo. */
    method UpdateBiometricProfile(dto: UpdateBiometricDto, now: Time) returns (r: Result<BiometricUpdateResponse>)
      modifies db`validations, db`profiles, db`students
      ensures BiometricRejection(old(db.students), old(db.profiles), dto.studentId).Some? ==>
        r == Err(BiometricRejection(old(db.students), old(db.profiles), dto.studentId).value)
        && db.validations == old(db.validations) && db.profiles == old(db.profiles)
        && db.students == old(db.students)
      ensures BiometricRejection(old(db.students), old(db.profiles), dto.studentId).None? ==>
        var v := Verdict(dto.similarity);
        db.validations == old(db.validations) + [LogOf(dto, now)]
        && db.profiles == old(db.profiles)[dto.studentId := BiometricProfile(ProfileStatusFor(v))]
        && db.students == (if v == ValidationResult.APROBADO
                           then old(db.students)[dto.studentId :=
                                  WithApprovedPhoto(old(db.students)[dto.studentId], dto.cardPhotoUrl, now)]
                           else old(db.students))
        && r == Ok(BiometricUpdateResponse(v == ValidationResult.APROBADO, db.students[dto.studentId],
                                           ValidationSummary(dto.similarity, v, SIMILARITY_THRESHOLD)))
      ensures old(db.Valid()) ==> db.Valid()
    {
      var rejection := BiometricRejection(db.students, db.profiles, dto.studentId);
      if rejection.Some? {
        return Err(rejection.value);
      }
      var v := Verdict(dto.similarity);
      db.validations := db.validations + [LogOf(dto, now)];
      db.profiles := db.profiles[dto.studentId := BiometricProfile(ProfileStatusFor(v))];
      if v == ValidationResult.APROBADO {
        db.students := db.students[dto.studentId := WithApprovedPhoto(db.students[dto.studentId], dto.cardPhotoUrl, now)];
      }
      r := Ok(BiometricUpdateResponse(v == ValidationResult.APROBADO, db.students[dto.studentId],
                                      ValidationSummary(dto.similarity, v, SIMILARITY_THRESHOLD)));
    }

    /** `resetBiometricProfile`: puts an existing profile back to PENDIENTE and
        keeps its validation history. */
    method ResetBiometricProfile(studentId: StudentId) returns (r: Result<BiometricProfile>)
      modifies db`profiles
      ensures studentId !in db.students ==>
        r == Err(NotFound(StudentIdNotFound(studentId))) && db.profiles == old(db.profiles)
      ensures studentId in db.students && studentId !in old(db.profiles) ==>
        r == Err(NotFound(NO_PROFILE)) && db.profiles == old(db.profiles)
      ensures studentId in db.students && studentId in old(db.profiles) ==>
        r == Ok(BiometricProfile(BiometricStatus.PENDIENTE))
        && db.profiles == old(db.profiles)[studentId := BiometricProfile(BiometricStatus.PENDIENTE)]
      ensures old(db.Valid()) ==> db.Valid()
    {
      if studentId !in db.students {
        return Err(NotFound(StudentIdNotFound(studentId)));
      }
      if studentId !in db.profiles {
        return Err(NotFound(NO_PROFILE));
      }
      db.profiles := db.profiles[studentId := BiometricProfile(BiometricStatus.PENDIENTE)];
      r := Ok(db.profiles[studentId]);
    }
  }
}

=== FILE: text.dfy ===
/** The JavaScript string operations the services rely on: `toUpperCase`, `trim`
    and `includes`. Upper-casing is modelled for ASCII and Latin-1 letters, the
    alphabet of the Spanish career names; `trim` removes exactly the characters
    ECMAScript counts as white space or line terminators. */
module Text {

  /** A Latin-1 or ASCII lower-case letter that `toUpperCase` maps one-to-one
      onto the letter 32 code points below it. */
  predicate IsLowerLetter(c: char) {
    ('a' <= c <= 'z') || ('\U{E0}' <= c <= '\U{FE}' && c != '\U{F7}')
  }

  function UpperChar(c: char): (u: char)
    ensures IsLowerLetter(c) ==> u as int == c as int - 32
    ensures !IsLowerLetter(c) ==> u == c
    ensures !IsLowerLetter(u)
  {
    if IsLowerLetter(c) then (c as int - 32) as char else c
  }

  /** `s.toUpperCase()` */
  function Upper(s: string): (u: string)
    ensures |u| == |s|
    ensures forall i :: 0 <= i < |s| ==> u[i] == UpperChar(s[i])
  {
    seq(|s|, i requires 0 <= i < |s| => UpperChar(s[i]))
  }

  /** WhiteSpace and LineTerminator of ECMAScript: what `trim` removes. */
  predicate IsJsWhitespace(c: char) {
    c == '\t' || c == '\n' || c == '\U{B}' || c == '\U{C}' || c == '\r' || c == ' '
    || c == '\U{A0}' || c == '\U{1680}' || ('\U{2000}' <= c <= '\U{200A}')
    || c == '\U{2028}' || c == '\U{2029}' || c == '\U{202F}' || c == '\U{205F}'
    || c == '\U{3000}' || c == '\U{FEFF}'
  }

  function TrimStart(s: string): (t: string)
    ensures |t| <= |s| && t == s[|s| - |t|..]
    ensures t == [] || !IsJsWhitespace(t[0])
    ensures forall i :: 0 <= i < |s| - |t| ==> IsJsWhitespace(s[i])
    decreases |s|
  {
    if |s| > 0 && IsJsWhitespace(s[0]) then TrimStart(s[1..]) else s
  }

  function TrimEnd(s: string): (t: string)
    ensures |t| <= |s| && t == s[..|t|]
    ensures t == [] || !IsJsWhitespace(t[|t| - 1])
    ensures forall i :: |t| <= i < |s| ==> IsJsWhitespace(s[i])
    decreases |s|
  {
    if |s| > 0 && IsJsWhitespace(s[|s| - 1]) then TrimEnd(s[..|s| - 1]) else s
  }

  /** `s.trim()` */
  function Trim(s: string): string {
    TrimEnd(TrimStart(s))
  }

  /** `s.includes(t)` */
  predicate Contains(s: string, t: string) {
    exists i :: 0 <= i <= |s| - |t| && t <= s[i..]
  }

  predicate HasNoLowerLetter(s: string) {
    forall i :: 0 <= i < |s| ==> !IsLowerLetter(s[i])
  }

  /** A string neither `toUpperCase` nor `trim` changes: no lower-case letter,
      and no white space at either end. */
  predicate IsUpperTrimmed(s: string) {
    HasNoLowerLetter(s)
    && (s == [] || (!IsJsWhitespace(s[0]) && !IsJsWhitespace(s[|s| - 1])))
  }

  lemma NoLowerLetterJoin(a: string, b: string)
    requires HasNoLowerLetter(a) && HasNoLowerLetter(b)
    ensures HasNoLowerLetter(a + b)
  {
    forall i | 0 <= i < |a + b| ensures !IsLowerLetter((a + b)[i]) {
      if i >= |a| {
        assert (a + b)[i] == b[i - |a|];
      }
    }
  }

  lemma UpperTrimmedIsFixed(s: string)
    requires IsUpperTrimmed(s)
    ensures Upper(s) == s && Trim(s) == s
  {
    assert Upper(s) == s;
  }

  lemma {:induction false} UpperIdempotent(s: string)
    ensures Upper(Upper(s)) == Upper(s)
  {
    forall i | 0 <= i < |s| ensures Upper(Upper(s))[i] == Upper(s)[i] {
    }
  }

  /** Upper-casing neither creates nor removes white space. */
  lemma UpperCharKeepsWhitespace(c: char)
    ensures IsJsWhitespace(UpperChar(c)) == IsJsWhitespace(c)
  {
  }

  lemma UpperSlices(s: string, n: nat)
    requires n <= |s|
    ensures Upper(s)[..n] == Upper(s[..n]) && Upper(s)[n..] == Upper(s[n..])
  {
  }

  lemma {:induction false} TrimStartCommutesWithUpper(s: string)
    ensures TrimStart(Upper(s)) == Upper(TrimStart(s))
    decreases |s|
  {
    if |s| > 0 {
      UpperCharKeepsWhitespace(s[0]);
      if IsJsWhitespace(s[0]) {
        UpperSlices(s, 1);
        TrimStartCommutesWithUpper(s[1..]);
      }
    }
  }

  lemma {:induction false} TrimEndCommutesWithUpper(s: string)
    ensures TrimEnd(Upper(s)) == Upper(TrimEnd(s))
    decreases |s|
  {
    if |s| > 0 {
      var u := Upper(s);
      UpperCharKeepsWhitespace(s[|s| - 1]);
      assert IsJsWhitespace(u[|u| - 1]) == IsJsWhitespace(s[|s| - 1]);
      if IsJsWhitespace(s[|s| - 1]) {
        UpperSlices(s, |s| - 1);
        assert TrimEnd(u) == TrimEnd(u[..|u| - 1]);
        TrimEndCommutesWithUpper(s[..|s| - 1]);
      } else {
        assert TrimEnd(u) == u && TrimEnd(s) == s;
      }
    }
  }

  /** Trimming an upper-cased string gives the upper-cased trimmed string. */
  lemma TrimCommutesWithUpper(s: string)
    ensures Trim(Upper(s)) == Upper(Trim(s))
  {
    TrimStartCommutesWithUpper(s);
    TrimEndCommutesWithUpper(TrimStart(s));
  }

  lemma {:induction false} TrimEndKeepsFirst(s: string)
    requires s == [] || !IsJsWhitespace(s[0])
    ensures TrimStart(TrimEnd(s)) == TrimEnd(s)
  {
  }

  lemma {:induction false} TrimEndIdempotent(s: string)
    ensures TrimEnd(TrimEnd(s)) == TrimEnd(s)
  {
  }

  lemma TrimIdempotent(s: string)
    ensures Trim(Trim(s)) == Trim(s)
  {
    TrimEndKeepsFirst(TrimStart(s));
    TrimEndIdempotent(TrimStart(s));
  }

  /** A string made only of white space trims to the empty string. */
  lemma {:induction false} AllWhitespaceTrimsToEmpty(s: string)
    requires forall i :: 0 <= i < |s| ==> IsJsWhitespace(s[i])
    ensures Trim(s) == []
    decreases |s|
  {
    if |s| > 0 {
      AllWhitespaceTrimsToEmpty(s[1..]);
    }
  }

  /** `trim` stops at the first non-white-space character: only a suffix
      `a[k..]` of the leading part survives. */
  lemma {:induction false} TrimStartStopsAtCore(a: string, r: string) returns (k: nat)
    requires r != [] && !IsJsWhitespace(r[0])
    ensures k <= |a| && TrimStart(a + r) == a[k..] + r
    decreases |a|
  {
    if a == [] {
      assert a + r == r;
      k := 0;
    } else if IsJsWhitespace(a[0]) {
      assert (a + r)[1..] == a[1..] + r;
      var k' := TrimStartStopsAtCore(a[1..], r);
      assert a[1..][k'..] == a[k' + 1..];
      k := k' + 1;
    } else {
      k := 0;
    }
  }

  /** `trim` stops at the last non-white-space character: only a prefix
      `b[..k]` of the trailing part survives. */
  lemma {:induction false} TrimEndStopsAtCore(l: string, b: string) returns (k: nat)
    requires l != [] && !IsJsWhitespace(l[|l| - 1])
    ensures k <= |b| && TrimEnd(l + b) == l + b[..k]
    decreases |b|
  {
    if b == [] {
      assert l + b == l;
      k := 0;
    } else if IsJsWhitespace(b[|b| - 1]) {
      assert (l + b)[..|l + b| - 1] == l + b[..|b| - 1];
      k := TrimEndStopsAtCore(l, b[..|b| - 1]);
      assert b[..|b| - 1][..k] == b[..k];
    } else {
      k := |b|;
      assert b[..k] == b;
    }
  }

  /** Trimming never cuts into a middle part that starts and ends with
      non-white-space characters: `(a + e + b).trim()` still includes `e`. */
  lemma TrimKeepsCore(a: string, e: string, b: string)
    requires e != [] && !IsJsWhitespace(e[0]) && !IsJsWhitespace(e[|e| - 1])
    ensures Contains(Trim(a + e + b), e)
  {
    assert a + e + b == a + (e + b);
    var k := TrimStartStopsAtCore(a, e + b);
    assert a[k..] + (e + b) == (a[k..] + e) + b;
    var j := TrimEndStopsAtCore(a[k..] + e, b);
    ContainsMiddle(a[k..], e, b[..j]);
  }

  lemma ContainsMiddle(p: string, e: string, q: string)
    ensures Contains(p + e + q, e)
  {
    var t := p + e + q;
    assert t[|p|..] == e + q;
  }

  /** `toUpperCase` distributes over concatenation. */
  lemma UpperConcat(a: string, b: string)
    ensures Upper(a + b) == Upper(a) + Upper(b)
  {
  }
}

=== FILE: user_service.dfy ===
/** The administrator accounts: creation with a unique e-mail, the listings by
    status, the ordered permission checks of an update, deletion, and the
    password login that issues an administrator token. Password hashing and
    comparison (bcrypt) and token signing are library functions the service
    is given. */
module AdminUsers {
  import opened Common
  import opened Schema
  import JwtStrategy

  const EMAIL_TAKEN: string := "El correo ya está registrado"
  const ADMIN_NOT_FOUND: string := "Administrador no encontrado"
  const ACCOUNT_INACTIVE: string := "Tu cuenta está inactiva. Contacta al administrador."
  const OWN_ROLE: string := "No puedes modificar tu propio rol"
  const ONLY_SUPERADMIN_ROLES: string := "Solo SuperAdmin puede modificar roles"
  const SELF_DEACTIVATION: string := "No puedes desactivarte a ti mismo"
  const ONLY_SUPERADMIN_STATUS: string := "Solo SuperAdmin puede cambiar el estado de usuarios"
  const OWN_SUPERADMIN: string := "No puedes quitarte tu propio rol de SuperAdmin"
  const INVALID_CREDENTIALS: string := "Credenciales inválidas"

  datatype CreateUserDto = CreateUserDto(
    name: string, lastName: string, email: string, password: string, role: AdminRole)

  /** The PATCH body as it reaches `update`. Every field is optional, and a
      missing one leaves the column as it is. The five declared fields come
      first. No validation pipe strips undeclared properties, so the body may
      also name the other two writable columns of the row, `password` and
      `created_at`, and they are written as given. */
  datatype UpdateUserDto = UpdateUserDto(
    name: Option<string>,
    lastName: Option<string>,
    email: Option<string>,
    status: Option<AdminStatus>,
    role: Option<AdminRole>,
    password: Option<string>,
    createdAt: Option<Time>)

  datatype LoginUserDto = LoginUserDto(email: string, password: string)

  /** The administrator as the login answer shows it: without the password. */
  datatype AdminView = AdminView(
    adminId: AdminId, name: string, lastName: string, email: string, role: AdminRole, createdAt: Time)

  datatype LoginResponse = LoginResponse(accessToken: string, user: AdminView)

  predicate EmailTaken(admins: map<AdminId, AdminUser>, email: string) {
    exists id :: id in admins && admins[id].email == email
  }

  /** No two administrators share an e-mail. */
  predicate EmailsUnique(admins: map<AdminId, AdminUser>) {
    forall a, b :: a in admins && b in admins && admins[a].email == admins[b].email ==> a == b
  }

  /** `findAll`: the active administrators. */
  function FindAll(admins: map<AdminId, AdminUser>): map<AdminId, AdminUser> {
    map id | id in admins && admins[id].status == ACTIVO :: admins[id]
  }

  /** `findInactive`: the inactive administrators. */
  function FindInactive(admins: map<AdminId, AdminUser>): map<AdminId, AdminUser> {
    map id | id in admins && admins[id].status == INACTIVO :: admins[id]
  }

  /** The two listings split the table: every administrator is in exactly one
      of them, with its row unchanged, and together they are what
      `findAllWithStatus` lists. */
  lemma ListingsPartitionTable(admins: map<AdminId, AdminUser>)
    ensures FindAll(admins).Keys !! FindInactive(admins).Keys
    ensures FindAll(admins).Keys + FindInactive(admins).Keys == admins.Keys
    ensures forall id :: id in FindAll(admins) ==> FindAll(admins)[id] == admins[id] && admins[id].status.ACTIVO?
    ensures forall id :: id in FindInactive(admins) ==> FindInactive(admins)[id] == admins[id] && admins[id].status.INACTIVO?
  {
    forall id | id in admins
      ensures id in FindAll(admins).Keys + FindInactive(admins).Keys
    {
      if admins[id].status.ACTIVO? {
        assert id in FindAll(admins);
      } else {
        assert id in FindInactive(admins);
      }
    }
  }

  /** `findOne` */
  function FindOne(admins: map<AdminId, AdminUser>, id: AdminId): (r: Result<AdminUser>)
    ensures r.Ok? <==> id in admins
    ensures r.Ok? ==> r.value == admins[id]
    ensures r.Err? ==> r.error == NotFound(ADMIN_NOT_FOUND)
  {
    if id !in admins then Err(NotFound(ADMIN_NOT_FOUND)) else Ok(admins[id])
  }

  /** `validateActiveUser`: the acting administrator must exist and be active. */
  function ValidateActiveUser(admins: map<AdminId, AdminUser>, userId: AdminId): (e: Option<HttpError>)
    ensures e.None? <==> userId in admins && admins[userId].status.ACTIVO?
    ensures e.Some? ==> e.value == Unauthorized(ACCOUNT_INACTIVE)
  {
    if userId !in admins || admins[userId].status == INACTIVO then Some(Unauthorized(ACCOUNT_INACTIVE))
    else None
  }

  /** The checks of `update`, in the order the service makes them; the first
      one that fails is the answer, and `None` lets the update through. */
  function UpdateRejection(
    admins: map<AdminId, AdminUser>, id: AdminId, dto: UpdateUserDto,
    currentUserId: AdminId, currentUserRole: AdminRole): Option<HttpError>
  {
    if ValidateActiveUser(admins, currentUserId).Some? then ValidateActiveUser(admins, currentUserId)
    else if FindOne(admins, id).Err? then Some(FindOne(admins, id).error)
    else if id == currentUserId && dto.role.Some? then Some(Forbidden(OWN_ROLE))
    else if dto.role.Some? && currentUserRole != SuperAdmin then Some(Forbidden(ONLY_SUPERADMIN_ROLES))
    else if id == currentUserId && dto.status == Some(INACTIVO) then Some(Forbidden(SELF_DEACTIVATION))
    else if dto.status.Some? && currentUserRole != SuperAdmin then Some(Forbidden(ONLY_SUPERADMIN_STATUS))
    else if id == currentUserId && admins[id].role == SuperAdmin && dto.role.Some? && dto.role != Some(SuperAdmin) then
      Some(Forbidden(OWN_SUPERADMIN))
    else None
  }

  /** Who may update what, stated without the chain: an active actor may
      update an existing administrator; a role only on someone else and only
      as SuperAdmin; a status only as SuperAdmin and never to deactivate
      oneself. */
  lemma UpdateAllowedIff(
    admins: map<AdminId, AdminUser>, id: AdminId, dto: UpdateUserDto,
    currentUserId: AdminId, currentUserRole: AdminRole)
    ensures UpdateRejection(admins, id, dto, currentUserId, currentUserRole).None? <==>
      currentUserId in admins && admins[currentUserId].status.ACTIVO?
      && id in admins
      && (dto.role.Some? ==> id != currentUserId && currentUserRole.SuperAdmin?)
      && (dto.status.Some? ==> currentUserRole.SuperAdmin? && !(id == currentUserId && dto.status == Some(INACTIVO)))
  {
  }

  /** An inactive or unknown actor is turned away before anything else is
      looked at, whatever the target and the fields. */
  lemma InactiveActorRejectedFirst(
    admins: map<AdminId, AdminUser>, id: AdminId, dto: UpdateUserDto,
    currentUserId: AdminId, currentUserRole: AdminRole)
    requires currentUserId !in admins || admins[currentUserId].status.INACTIVO?
    ensures UpdateRejection(admins, id, dto, currentUserId, currentUserRole) == Some(Unauthorized(ACCOUNT_INACTIVE))
  {
  }

  /** An active actor updating an unknown administrator gets NotFound. */
  lemma MissingTargetIsNotFound(
    admins: map<AdminId, AdminUser>, id: AdminId, dto: UpdateUserDto,
    currentUserId: AdminId, currentUserRole: AdminRole)
    requires currentUserId in admins && admins[currentUserId].status.ACTIVO?
    requires id !in admins
    ensures UpdateRejection(admins, id, dto, currentUserId, currentUserRole) == Some(NotFound(ADMIN_NOT_FOUND))
  {
  }

  /** Changing one's own role never succeeds, so the later check against a
      SuperAdmin removing their own SuperAdmin role never fires: its message
      is never the answer. */
  lemma OwnRoleNeverChanges(
    admins: map<AdminId, AdminUser>, id: AdminId, dto: UpdateUserDto,
    currentUserId: AdminId, currentUserRole: AdminRole)
    ensures id == currentUserId && dto.role.Some? ==>
      UpdateRejection(admins, id, dto, currentUserId, currentUserRole).Some?
    ensures UpdateRejection(admins, id, dto, currentUserId, currentUserRole) != Some(Forbidden(OWN_SUPERADMIN))
  {
  }

  /** Once actor and target have passed the lookups, a role or status change
      by anyone but a SuperAdmin, and a self-deactivation by anyone, is
      Forbidden. */
  lemma PrivilegedChangesForbidden(
    admins: map<AdminId, AdminUser>, id: AdminId, dto: UpdateUserDto,
    currentUserId: AdminId, currentUserRole: AdminRole)
    requires currentUserId in admins && admins[currentUserId].status.ACTIVO? && id in admins
    ensures (dto.role.Some? || dto.status.Some?) && !currentUserRole.SuperAdmin? ==>
      UpdateRejection(admins, id, dto, currentUserId, currentUserRole).Some?
      && UpdateRejection(admins, id, dto, currentUserId, currentUserRole).value.Forbidden?
    ensures id == currentUserId && dto.status == Some(INACTIVO) ==>
      UpdateRejection(admins, id, dto, currentUserId, currentUserRole).Some?
      && UpdateRejection(admins, id, dto, currentUserId, currentUserRole).value.Forbidden?
  {
  }

  /** The row after `adminUser.update` with the body as data: each supplied
      field replaces its column, each missing one leaves it. The password is
      stored exactly as sent, without hashing. */
  function ApplyUpdate(user: AdminUser, dto: UpdateUserDto): AdminUser {
    user.(
      name := dto.name.GetOr(user.name),
      lastName := dto.lastName.GetOr(user.lastName),
      email := dto.email.GetOr(user.email),
      status := dto.status.GetOr(user.status),
      role := dto.role.GetOr(user.role),
      password := dto.password.GetOr(user.password),
      createdAt := dto.createdAt.GetOr(user.createdAt))
  }

  /** An update without fields leaves the row as it is, and a column the body
      does not name keeps its value. */
  lemma ApplyUpdateKeepsUnsupplied(user: AdminUser, dto: UpdateUserDto)
    ensures dto == UpdateUserDto(None, None, None, None, None, None, None) ==> ApplyUpdate(user, dto) == user
    ensures dto.name.None? ==> ApplyUpdate(user, dto).name == user.name
    ensures dto.name.Some? ==> ApplyUpdate(user, dto).name == dto.name.value
    ensures dto.lastName.None? ==> ApplyUpdate(user, dto).lastName == user.lastName
    ensures dto.lastName.Some? ==> ApplyUpdate(user, dto).lastName == dto.lastName.value
    ensures dto.email.None? ==> ApplyUpdate(user, dto).email == user.email
    ensures dto.email.Some? ==> ApplyUpdate(user, dto).email == dto.email.value
    ensures dto.status.None? ==> ApplyUpdate(user, dto).status == user.status
    ensures dto.status.Some? ==> ApplyUpdate(user, dto).status == dto.status.value
    ensures dto.role.None? ==> ApplyUpdate(user, dto).role == user.role
    ensures dto.role.Some? ==> ApplyUpdate(user, dto).role == dto.role.value
    ensures dto.password.None? ==> ApplyUpdate(user, dto).password == user.password
    ensures dto.password.Some? ==> ApplyUpdate(user, dto).password == dto.password.value
    ensures dto.createdAt.None? ==> ApplyUpdate(user, dto).createdAt == user.createdAt
    ensures dto.createdAt.Some? ==> ApplyUpdate(user, dto).createdAt == dto.createdAt.value
  {
  }

  /** None of the checks of `update` looks at the password or the creation
      date. So any active administrator, whatever their role, may set another
      administrator's stored password hash (a SuperAdmin's included) to a
      value of their choosing. */
  lemma AnyActiveAdminCanSetPasswordHash(
    admins: map<AdminId, AdminUser>, id: AdminId, currentUserId: AdminId,
    currentUserRole: AdminRole, newHash: string)
    requires currentUserId in admins && admins[currentUserId].status.ACTIVO?
    requires id in admins && id != currentUserId
    ensures var dto := UpdateUserDto(None, None, None, None, None, Some(newHash), None);
            UpdateRejection(admins, id, dto, currentUserId, currentUserRole).None?
            && ApplyUpdate(admins[id], dto).password == newHash
  {
  }

  /** The update restricted to the five declared fields, as a whitelisting
      validation pipe would leave the body: it never touches the password or
      the creation date, and agrees with `ApplyUpdate` on every body that
      names neither. */
  function ApplyDeclaredUpdate(user: AdminUser, dto: UpdateUserDto): (u: AdminUser)
    ensures u.password == user.password && u.createdAt == user.createdAt
    ensures dto.password.None? && dto.createdAt.None? ==> u == ApplyUpdate(user, dto)
  {
    ApplyUpdate(user, dto.(password := None, createdAt := None))
  }

  /** The administrator `findFirst({ where: { email } })` may return: some row
      with that e-mail, or nothing when no row has it. */
  predicate FoundByEmail(admins: map<AdminId, AdminUser>, email: string, found: Option<AdminId>) {
    match found
    case None => !EmailTaken(admins, email)
    case Some(id) => id in admins && admins[id].email == email
  }

  /** The claims of the token issued at login. */
  function LoginPayload(id: AdminId, user: AdminUser): JwtStrategy.JwtPayload {
    JwtStrategy.JwtPayload(id, user.email, user.role)
  }

  /** The answer of `login` once the e-mail lookup has returned `found`. */
  function LoginDecision(
    admins: map<AdminId, AdminUser>, found: Option<AdminId>, dto: LoginUserDto,
    passwordMatches: (string, string) -> bool, sign: JwtStrategy.JwtPayload -> string): Result<LoginResponse>
  {
    if found.None? || found.value !in admins then Err(Unauthorized(INVALID_CREDENTIALS))
    else
      var id := found.value;
      var user := admins[id];
      if user.status == INACTIVO then Err(Unauthorized(ACCOUNT_INACTIVE))
      else if !passwordMatches(dto.password, user.password) then Err(Unauthorized(INVALID_CREDENTIALS))
      else Ok(LoginResponse(
        sign(LoginPayload(id, user)),
        AdminView(id, user.name, user.lastName, user.email, user.role, user.createdAt)))
  }

  /** The outcomes of `login`, in order: an unknown e-mail and a wrong
      password give the same answer; an inactive account is refused whatever
      the password; a success carries a token for the account's id, e-mail
      and role. */
  lemma LoginOutcomeOrder(
    admins: map<AdminId, AdminUser>, id: AdminId, dto: LoginUserDto, other: string,
    passwordMatches: (string, string) -> bool, sign: JwtStrategy.JwtPayload -> string)
    requires id in admins
    ensures admins[id].status.ACTIVO? && !passwordMatches(dto.password, admins[id].password) ==>
      LoginDecision(admins, Some(id), dto, passwordMatches, sign)
      == LoginDecision(admins, None, dto, passwordMatches, sign)
    ensures admins[id].status.INACTIVO? ==>
      LoginDecision(admins, Some(id), dto, passwordMatches, sign)
      == LoginDecision(admins, Some(id), dto.(password := other), passwordMatches, sign)
      == Err(Unauthorized(ACCOUNT_INACTIVE))
    ensures LoginDecision(admins, Some(id), dto, passwordMatches, sign).Ok? <==>
      admins[id].status.ACTIVO? && passwordMatches(dto.password, admins[id].password)
    ensures LoginDecision(admins, Some(id), dto, passwordMatches, sign).Ok? ==>
      LoginDecision(admins, Some(id), dto, passwordMatches, sign).value.accessToken
      == sign(JwtStrategy.JwtPayload(id, admins[id].email, admins[id].role))
  {
  }

  /** A token issued at login is accepted by the JWT strategy, which returns
      the same administrator, for as long as the account stays active. */
  lemma LoginTokenValidates(
    admins: map<AdminId, AdminUser>, id: AdminId, dto: LoginUserDto,
    passwordMatches: (string, string) -> bool, sign: JwtStrategy.JwtPayload -> string)
    requires LoginDecision(admins, Some(id), dto, passwordMatches, sign).Ok?
    ensures id in admins
    ensures JwtStrategy.Validate(admins, LoginPayload(id, admins[id])) == Ok(admins[id])
  {
  }

  /** The administrators service: `db` is the database client, `hash` and
      `passwordMatches` stand for bcrypt, `sign` for the JWT signer. */
  class UserService {
    const db: Database
    const hash: string -> string
    const passwordMatches: (string, string) -> bool
    const sign: JwtStrategy.JwtPayload -> string

    constructor (db: Database, hash: string -> string, passwordMatches: (string, string) -> bool,
                 sign: JwtStrategy.JwtPayload -> string)
      ensures this.db == db && this.hash == hash
      ensures this.passwordMatches == passwordMatches && this.sign == sign
    {
      this.db := db;
      this.hash := hash;
      this.passwordMatches := passwordMatches;
      this.sign := sign;
    }

    /** The row `create` inserts: the hashed password, the ACTIVO status the
        table gives by default, and the creation time. */
    function NewAdmin(dto: CreateUserDto, now: Time): AdminUser {
      AdminUser(dto.name, dto.lastName, dto.email, hash(dto.password), dto.role, ACTIVO, now)
    }

    /** `create`: refuses an e-mail that is already registered; otherwise
        inserts the new administrator under the fresh id `newId`. */
    method Create(dto: CreateUserDto, newId: AdminId, now: Time) returns (r: Result<AdminUser>)
      requires newId !in db.admins
      modifies db`admins
      ensures EmailTaken(old(db.admins), dto.email) ==>
        r == Err(BadRequest(EMAIL_TAKEN)) && db.admins == old(db.admins)
      ensures !EmailTaken(old(db.admins), dto.email) ==>
        r == Ok(NewAdmin(dto, now)) && db.admins == old(db.admins)[newId := NewAdmin(dto, now)]
      ensures EmailsUnique(old(db.admins)) ==> EmailsUnique(db.admins)
    {
      if exists id :: id in db.admins && db.admins[id].email == dto.email {
        return Err(BadRequest(EMAIL_TAKEN));
      }
      var row := NewAdmin(dto, now);
      db.admins := db.admins[newId := row];
      r := Ok(row);
    }

    /** `update`: runs the checks in order and, when all pass, writes the
        supplied fields into the target row and nothing else. */
    method Update(id: AdminId, dto: UpdateUserDto, currentUserId: AdminId, currentUserRole: AdminRole)
      returns (r: Result<AdminUser>)
      modifies db`admins
      ensures UpdateRejection(old(db.admins), id, dto, currentUserId, currentUserRole).Some? ==>
        r == Err(UpdateRejection(old(db.admins), id, dto, currentUserId, currentUserRole).value)
        && db.admins == old(db.admins)
      ensures UpdateRejection(old(db.admins), id, dto, currentUserId, currentUserRole).None? ==>
        id in old(db.admins)
        && db.admins == old(db.admins)[id := ApplyUpdate(old(db.admins)[id], dto)]
        && r == Ok(db.admins[id])
    {
      var inactive := ValidateActiveUser(db.admins, currentUserId);
      if inactive.Some? {
        return Err(inactive.value);
      }
      var target := FindOne(db.admins, id);
      if target.Err? {
        return Err(target.error);
      }
      if id == currentUserId && dto.role.Some? {
        return Err(Forbidden(OWN_ROLE));
      }
      if dto.role.Some? && currentUserRole != SuperAdmin {
        return Err(Forbidden(ONLY_SUPERADMIN_ROLES));
      }
      if id == currentUserId && dto.status == Some(INACTIVO) {
        return Err(Forbidden(SELF_DEACTIVATION));
      }
      if dto.status.Some? && currentUserRole != SuperAdmin {
        return Err(Forbidden(ONLY_SUPERADMIN_STATUS));
      }
      if id == currentUserId && target.value.role == SuperAdmin && dto.role.Some? && dto.role != Some(SuperAdmin) {
        return Err(Forbidden(OWN_SUPERADMIN));
      }
      var row := ApplyUpdate(target.value, dto);
      db.admins := db.admins[id := row];
      r := Ok(row);
    }

    /** `remove`: deletes an existing administrator, NotFound otherwise. */
    method Remove(id: AdminId) returns (r: Result<AdminUser>)
      modifies db`admins
      ensures id !in old(db.admins) ==> r == Err(NotFound(ADMIN_NOT_FOUND)) && db.admins == old(db.admins)
      ensures id in old(db.admins) ==> r == Ok(old(db.admins)[id]) && db.admins == old(db.admins) - {id}
    {
      var target := FindOne(db.admins, id);
      if target.Err? {
        return Err(target.error);
      }
      db.admins := db.admins - {id};
      r := Ok(target.value);
    }

    /** `login`: looks the account up by e-mail (any row with that e-mail
        when several share it), then decides. It changes nothing. */
    method Login(dto: LoginUserDto) returns (r: Result<LoginResponse>)
      ensures exists found ::
                FoundByEmail(db.admins, dto.email, found)
                && r == LoginDecision(db.admins, found, dto, passwordMatches, sign)
      ensures !EmailTaken(db.admins, dto.email) ==> r == Err(Unauthorized(INVALID_CREDENTIALS))
      ensures r.Ok? ==>
                r.value.user.adminId in db.admins
                && db.admins[r.value.user.adminId].email == dto.email
                && db.admins[r.value.user.adminId].status.ACTIVO?
                && passwordMatches(dto.password, db.admins[r.value.user.adminId].password)
    {
      var found: Option<AdminId> := None;
      if exists id :: id in db.admins && db.admins[id].email == dto.email {
        var id :| id in db.admins && db.admins[id].email == dto.email;
        found := Some(id);
      }
      r := LoginDecision(db.admins, found, dto, passwordMatches, sign);
    }
  }
}
